=== FILE: README.md ===
# Acquisition control loop of the MBMS modem

This project models the acquisition control loop of the `rt-mbms-mw` modem. The loop is the `for(;;)` in `main()`. It drives one SDR and one LTE PHY through three states:

- **searching**: find a cell wherever the SDR is currently tuned;
- **syncing**: synchronise to the subframe grid, up to 200 attempts per pass;
- **processing**: fetch one subframe at a time and hand it to a decoder on a thread pool. The CAS subframes go to the single CAS processor. The MBSFN subframes go to one of `thread_cnt` MBSFN processors, chosen round robin.

The model also covers the REST parameter callback `set_params`. It stores a new tuning and requests a restart, which the searching state serves.

Files:

- `radio.dfy` (module `Radio`): the value-level helpers. These are the 10240-subframe TTI counter, unsigned 32-bit increment and decrement, the PRB to low-pass-bandwidth arithmetic, the subcarrier-spacing map and the round-robin sequence of processor indices.
- `sync.dfy` (module `Sync`): the bounded synchronisation retry loop. `SyncPass` is written as the loop is, including the post-decrement of the unsigned counter in the loop guard. It is proved equal to `SyncOutcome`.
- `machine.dfy` (module `Machine`): the loop as a function on values.
  - `Snapshot` holds every variable the loop reads or writes, a log of SDR operations, a log of PHY/RRC/CAS calls, the decode tasks pushed to the pool and the MBSFN buffers taken.
  - `Next` is one iteration: one pass of the outer loop while searching or syncing, one pass of the inner `while (state == processing)` while processing. `Run` folds `Next` over a sequence of iterations.
  - `Release` is a decode task finishing and unlocking its processor. An `Event` is either a loop iteration or such a completion, and `Execute` folds `Apply` over a sequence of events. `Run` is `Execute` with no completions (`Properties.RunIsExecute`).
- `receiver.dfy` (module `Loop`): the loop as it runs, as a class `Receiver`.
  - The globals and loop locals are fields, and the MBSFN processors are an array of `Slot`s (a lock flag and the configuration given to the processor).
  - `Step` performs one iteration in place and is proved to produce `Next` of the old state. `CompleteDecode` releases a processor as `Release` says. `Perform` and `PerformAll` run events, iterations and completions interleaved, and are proved to produce `Apply` and `Execute`.
- `properties.dfy` (module `Properties`): what the loop guarantees, proved about `Next`, `Run` and `Execute`. An iteration that would take a processor still held by a decode task blocks until that task has finished. The lemmas about `Run` cover runs where no such wait happens. The lemmas about `Execute` cover every run, with completions anywhere in between.

The SDR, the PHY, the frame processors and the RRC are collaborators whose code is not part of this model. Each iteration's answers from them form one `Inputs` value. These answers are:

- whether a cell was found and its PRB count;
- the answer to each synchronisation attempt;
- the PHY's TTI and cell;
- which TTIs are CAS and which are decodable MBSFN subframes;
- whether the frame fetch succeeded;
- the reported MBSFN PRB count, MCCH state, area id and subcarrier spacing.

The calls the loop makes on the SDR and the stack are recorded in order. `srsran_sampling_freq_hz` is the function-valued configuration field `samplingFreqHz`.

Behaviours of the code that the model keeps as written:

- **A failed syncing pass never falls back to searching.** The retry counter `max_frames` is unsigned and post-decremented in the loop guard. After 200 failed attempts it wraps to 4294967295 instead of stopping at 0. The fall-back test `max_frames == 0 && !sfn_sync` therefore never holds, and the loop stays in syncing (`Sync.SyncOutcome`, `Properties.SyncFailureStaysSyncing`).
- **Every retune the loop makes uses the global `frequency`.** Only `set_params` writes it, and its initial value is 667 MHz (`Properties.LoopUsesDefaultFrequency`). The startup code tunes the SDR to the configured frequencies but never writes that global. So the first cell search runs on a configured frequency, and the first live-mode retune after a found cell moves the SDR to 667 MHz.
- **A restart requested while syncing waits for a successful sync.** The loop never leaves syncing while every attempt fails, so a pending restart from `set_params` is never served there, and the SDR is never retuned (`Properties.RestartStarvedByFailingSync`).

## Model

| member | source | states |
|---|---|---|
| Radio.NextTti | src/main.cpp:568 | the TTI after one more subframe stays below 10240: it is one more, and 0 after 10239 |
| Radio.Sfn | src/main.cpp:569 | the system frame number of a TTI is below 1024, and the TTI lies among that frame's ten subframes |
| Radio.NextSlot | src/main.cpp:662 | the next MBSFN processor index is below `thread_cnt`: one more, or 0 after the last |
| Radio.Inc32 | src/main.cpp:665 | the `uint32_t` tick after `tick++` stays below 2^32 and wraps to 0 |
| Radio.Dec32 | src/main.cpp:532 | an unsigned decrement gives one less, and 0 wraps to 4294967295 |
| Radio.MeasurementInterval | src/main.cpp:470-472 | the interval in ticks is `interval_secs * 1000` in 32 bits; it is nonzero for any positive interval that fits |
| Radio.LowPassBandwidth | src/main.cpp:514 | the filter bandwidth is six fifths of the channel width of `prb` blocks at 200 kHz each, so never below it |
| Radio.ToScs | src/main.cpp:630-635 | the decoder spacing has the same width as the PHY's reported spacing: 15 kHz, 7.5 kHz or 1.25 kHz |
| Radio.ToScsInjective | src/main.cpp:630-635 | distinct reported spacings map to distinct decoder spacings |
| Radio.RoundRobinFrom | src/main.cpp:662 | `k` round-robin choices from a valid index are `k` valid processor indices |
| Radio.RoundRobinCountsUp | src/main.cpp:662 | round robin from `i` visits `i`, `i+1`, ... while below `thread_cnt` |
| Radio.RoundRobinSplit | src/main.cpp:662 | `a + b` round-robin choices are `a` choices followed by `b` more from where they stopped |
| Radio.RoundRobinFullCircle | src/main.cpp:662 | from processor `i`, `thread_cnt - i` choices come back to processor 0 |
| Radio.RoundRobinWraps | src/main.cpp:662 | after processor `thread_cnt - 1`, round robin starts again at 0 |
| Radio.RoundRobinFromZero | src/main.cpp:662 | from 0 the choices are 0, 1, ..., N-1, then the same again |
| Radio.SlotAfter | src/main.cpp:662 | the processor index after `k` choices from a valid index is valid |
| Radio.SlotAfterClosedForm | src/main.cpp:662 | `k` round-robin steps from a valid index `i` reach `(i + k) mod thread_cnt` |
| Radio.TtiAfterClosedForm | src/main.cpp:568 | `k` TTI increments from `t` reach `(t + k) mod 10240` |
| Sync.FirstSync | src/main.cpp:532-534 | the first successful attempt from `k` on, or 200: all attempts before it fail |
| Sync.SyncOutcome | src/main.cpp:530-541 | 1 to 200 attempts; synchronised iff some attempt among the first 200 succeeds, and then it is the last one made; on failure, 200 attempts and a wrapped counter, so the fall-back test never holds |
| Sync.SyncPass | src/main.cpp:530-534 | the retry loop with its post-decremented unsigned counter computes `SyncOutcome` |
| Machine.Initial | src/main.cpp:466-476 | the state before the loop: searching; TTI, processor index and tick 0; no restart; frequency 667 MHz, bandwidth 10 MHz and the search sample rate; both PRB counts 0; every processor unlocked and unconfigured; the SDR log holds the one start; nothing called, submitted, acquired or measured |
| Machine.SetParamsSpec | src/main.cpp:200-210 | the parameter callback stores the whole tuple and requests a restart; nothing else changes |
| Machine.SearchRetune | src/main.cpp:481-486 | the retune for searching: sample rate back to the search rate, then stop, tune and start at the current parameters; nothing else changes |
| Machine.Unlocked | src/main.cpp:550-552 | every processor unlocked, configurations kept |
| Machine.SlotConfigFor | src/main.cpp:629-639 | a processor's configuration: the PHY's cell with `nof_prb` set to its MBSFN PRB count, the MBSFN area id and the mapped spacing |
| Machine.Next | src/main.cpp:479-722 | one iteration of the loop keeps the TTI below 10240, the processor index below `thread_cnt` and the tick in 32 bits |
| Machine.Release | src/main.cpp:641-643 | a finished decode task unlocks its processor and changes nothing else |
| Machine.Run | src/main.cpp:479-722 | any number of iterations keep the same bounds |
| Machine.MbsfnCount | src/main.cpp:570-620 | the number of MBSFN subframes in a run is at most the number of iterations |
| Machine.Apply | src/main.cpp:479-722 | an iteration (`Next`) or a decode completion (`Release`) keeps the TTI, processor index and tick bounds |
| Machine.Execute | src/main.cpp:479-722 | any interleaving of iterations and decode completions keeps the same bounds |
| Loop.Receiver.constructor | src/main.cpp:466-476 | the receiver starts in `Initial` with a fresh processor array of `thread_cnt` slots |
| Loop.Receiver.SetParams | src/main.cpp:200-210 | the callback updates the receiver as `SetParamsSpec` says |
| Loop.Receiver.CompleteDecode | src/main.cpp:641-643 | the release of a locked processor updates the receiver as `Release` says |
| Loop.Receiver.Step | src/main.cpp:479-722 | one iteration in place leaves the receiver in `Next` of its old state |
| Loop.Receiver.Perform | src/main.cpp:479-722 | an iteration or a decode completion, whichever can happen, leaves the receiver in `Apply` of its old state |
| Loop.Receiver.PerformAll | src/main.cpp:479-722 | a sequence of events, each able to happen when its turn comes, leaves the receiver in `Execute` of its old state |
| Loop.Receiver.RetuneForSearch | src/main.cpp:481-486 | the search retune in place: equals `SearchRetune` of the old state |
| Loop.Receiver.SearchCell | src/main.cpp:480-525 | the searching iteration in place: equals `SearchStep` of the old state |
| Loop.Receiver.BeginSearch | src/main.cpp:481-493 | the optional retune, file writing off, restart cleared and buffer cleared, in place: equals `PrepareSearch` of the old state |
| Loop.Receiver.CellFound | src/main.cpp:495-522 | the PRB bookkeeping and live-mode retune for a found cell, in place: equals `AdoptCell` of the old state |
| Loop.Receiver.UnlockAll | src/main.cpp:550-552 | the processor array after the loop is `Unlocked` of the old one |
| Loop.Receiver.SyncSubframe | src/main.cpp:526-564 | the syncing iteration in place: equals `SyncStep` of the old state |
| Loop.Receiver.StartProcessing | src/main.cpp:543-566 | the entry into processing in place: equals `EnterProcessing` of the old state |
| Loop.Receiver.LoseSyncNow | src/main.cpp:608-619 | the loss of synchronisation in place: equals `LoseSync` of the old state |
| Loop.Receiver.ProcessCas | src/main.cpp:570-619 | a CAS subframe in place, including a changed MBSFN width (`ExtendPrb`): equals `CasSubframe` of the old state |
| Loop.Receiver.ProcessMbsfn | src/main.cpp:620-662 | an MBSFN subframe, with its lock, decode hand-over or unlock, in place: equals `MbsfnSubframe` of the old state |
| Loop.Receiver.ProcessSubframe | src/main.cpp:567-719 | one processing iteration, with the tick and measurement count, in place: equals `ProcessStep` of the old state |
| Properties.Transitions | src/main.cpp:479-722 | searching goes to syncing iff a cell is found, else stays; syncing goes to processing iff an attempt succeeds and never to searching; processing goes to searching iff restart is pending or the fetch fails, and to syncing iff a fetched CAS subframe reports a different MBSFN PRB count; searching never goes to processing |
| Properties.SyncFailureStaysSyncing | src/main.cpp:530-541 | a pass where all 200 attempts fail records 200 attempts and changes nothing else: the state stays syncing |
| Properties.TtiUpdate | src/main.cpp:555-568 | the TTI advances by one subframe per processing iteration, is seeded from the PHY only on entry to processing, and is otherwise unchanged |
| Properties.RunAdvancesTti | src/main.cpp:567-568 | `k` iterations that stay in processing advance the TTI by `k` subframes: it becomes `(tti + k) mod 10240` |
| Properties.EnterProcessingResets | src/main.cpp:543-566 | processing is entered only from syncing, with processor index 0, the PHY's TTI and every processor unlocked with its configuration kept |
| Properties.SlotIndexAdvance | src/main.cpp:620-662 | every MBSFN subframe advances the processor index by one round-robin step, whatever the outcome; CAS subframes leave it |
| Properties.RoundRobin | src/main.cpp:620-662 | while processing, the processors whose buffers are taken are the round-robin sequence from the current index, one per MBSFN subframe, and after `k` MBSFN subframes the index is `(mb_idx + k) mod thread_cnt` |
| Properties.RoundRobinFromEntry | src/main.cpp:566-662 | after entry, the MBSFN subframes take processors 0, 1, ..., N-1 and then start over at 0 |
| Properties.LockTransitions | src/main.cpp:550-648 | across one iteration, a processor goes from unlocked to locked only when an MBSFN subframe takes its buffer; the loop unlocks a processor only on entry to processing (otherwise only a finished decode task, `Release`, unlocks it) |
| Properties.MbsfnDispatch | src/main.cpp:626-661 | after taking processor `i`: a good fetch of a decodable MBSFN subframe configures `i` if not yet configured and submits it once; another good fetch unlocks it; a failed fetch leaves it locked and goes to searching; other processors are untouched |
| Properties.ConfigurationKept | src/main.cpp:629 | a configured processor is never reconfigured |
| Properties.SlotsUntouchedOutsideProcessing | src/main.cpp:479-564 | searching and unsuccessful syncing touch no processor, so a processor left locked by a failed fetch stays locked until the next entry to processing |
| Properties.SearchServesRestart | src/main.cpp:481-493 | a pending restart is served by one stop/tune/start at the search sample rate with the requested parameters, then cleared |
| Properties.RestartStarvedByFailingSync | src/main.cpp:530-541 | a restart pending in syncing stays pending while all attempts fail: the loop stays in syncing and the SDR log, frequency, processors and submissions are unchanged |
| Properties.OnlySearchClearsRestart | src/main.cpp:492 | syncing and processing leave the restart flag as it is |
| Properties.RestartPreemptsProcessing | src/main.cpp:573-626 | with a restart pending, the iteration's outcome does not depend on the fetch result, so no frame is fetched; it locks nothing, submits nothing and goes to searching |
| Properties.SetParamsOverwrites | src/main.cpp:200-210 | a second parameter request replaces the first entirely |
| Properties.DoubleRequestRetunesOnce | src/main.cpp:481-493 | two identical requests before searching runs cause exactly one stop/tune/start cycle |
| Properties.CellFoundBookkeeping | src/main.cpp:495-522 | a found cell sets both PRB counts to its PRB count; from a file, the MBSFN count becomes `file_bw * 5` and there is no retune; live, the SDR is stopped, retuned at the same frequency with the cell's sample rate and guarded bandwidth, and started |
| Properties.PrbExtension | src/main.cpp:573-607 | a different MBSFN PRB count, wider or narrower: the CAS decode is submitted, the new count recorded, the SDR retuned at the same frequency with the new rate and bandwidth between stop and start, the CAS count kept, and the loop resynchronises |
| Properties.CasPrbOnlyFromSearch | src/main.cpp:498 | the CAS PRB count changes only when a cell is found |
| Properties.SampleRateOnlyReset | src/main.cpp:483-653 | the loop only ever resets the sample-rate global to the search rate |
| Properties.StepKeepsFrequency | src/main.cpp:484-654 | one iteration keeps the centre frequency and every tune it adds is at that frequency |
| Properties.RunKeepsFrequency | src/main.cpp:479-722 | any number of iterations keep the centre frequency and tune only at it |
| Properties.LoopUsesDefaultFrequency | src/main.cpp:171-202 | without a parameter request, every tune the loop makes is at 667 MHz |
| Properties.MbsfnCountCounts | src/main.cpp:570-620 | the count of MBSFN subframes is 0 exactly when every subframe of the run is a CAS subframe, and the number of iterations exactly when none is |
| Properties.ReleaseThenNext | src/main.cpp:626-648 | a decode task finishing before an iteration changes nothing of that iteration's outcome but the processors' locks |
| Properties.ReleaseUnblocks | src/main.cpp:626 | an iteration waiting for processor `mb_idx` can go ahead once that processor's decode task has released it |
| Properties.RunIsExecute | src/main.cpp:479-722 | a run of iterations alone is the same run with no decode completions, and its iterations are those given |
| Properties.ExecuteAdvancesTti | src/main.cpp:567-568 | with decode completions anywhere in between, `k` iterations in processing still move the TTI to `(tti + k) mod 10240` |
| Properties.RoundRobinWithReleases | src/main.cpp:620-662 | with decode completions anywhere in between, the processors taken are still the round-robin sequence from the current index, one per MBSFN subframe, and the index ends at `(mb_idx + k) mod thread_cnt` |
| Properties.RoundRobinFromEntryWithReleases | src/main.cpp:566-662 | with decode completions anywhere in between, after entry the MBSFN subframes take processors 0, 1, ..., N-1 and then start over at 0 |
| Properties.ExecuteKeepsFrequency | src/main.cpp:479-722 | iterations and decode completions together keep the centre frequency and tune only at it |
| Properties.ExecuteUsesDefaultFrequency | src/main.cpp:171-202 | without a parameter request, every tune the loop makes, whatever decode completions happen, is at 667 MHz |
| Properties.TickCounting | src/main.cpp:665-666 | each processing iteration counts one 32-bit tick and one measurement row when the tick is a multiple of the interval; other states count nothing |

## Left out

- Loop.Receiver.Step: requires that the next MBSFN processor is not still locked. `get_rx_buffer_and_lock` would block until the decode task holding it finishes, and that finish is modelled by `CompleteDecode`.
- Loop.Receiver.CompleteDecode: any locked processor may be released at any time, including one left locked by a failed fetch or one with no decode task in flight. The model does not tie a release to a pushed decode task, because the MBSFN frame processor's code is not part of this model.
- The thread pool runs decodes concurrently with the loop. The decodes themselves, and the data race between `set_params` and the loop on `restart` and the parameter globals, are not modelled. Each call of `SetParams` or `Step` is atomic.
- Syncing unlocks every processor, including one whose decode task may still be running. The model records this as written and says nothing about the task.
- The startup sequence before the loop is not modelled. This covers argument and configuration parsing, logging setup, SDR initialisation and processor creation. The startup tuning indexes `frequencies[1]` without checking the list's size, and it never writes the global `frequency`.
- Machine.Initial: the SDR log holds only the start at src/main.cpp:466. The two startup tunes to the configured frequencies (src/main.cpp:347-370) are not in it.
- Machine.ValidConfig: requires `thread_cnt > 0` and a nonzero measurement interval. The source reads both from the configuration without a check (src/main.cpp:377-378 and src/main.cpp:470-472). A `thread_cnt` of 0 makes `mbsfn_processors[mb_idx]` index out of range and `% thread_cnt` divide by zero (src/main.cpp:626 and src/main.cpp:662). An `interval_secs` of 0, or any multiple of 2^29 (whose product with 1000 is 0 in 32 bits), makes `tick % measurement_interval` divide by zero on the first processing iteration (src/main.cpp:666). Those configurations are undefined behaviour and are excluded, both here and in the `Loop.Receiver` constructor.
- The CAS and MBSFN processors, the PHY, the SDR driver, the RRC and `srsran_sampling_freq_hz` are not part of this model. Their results are inputs, and their calls appear in the logs. The REST handler's read of `state` is not modelled.
- Radio.LowPassBandwidth: `(prb * 200000) * 1.2` is a double product truncated to `uint32_t`. It is modelled as the exact integer `prb * 240000`, with no rounding and no 32-bit overflow. From 17896 PRBs on, the product no longer fits the `uint32_t` bandwidth.
- The other unsigned globals (`frequency`, `sample_rate`, `bandwidth`, the PRB counts, `file_bw * 5`) are unbounded naturals. The parameters passed to `set_params` and the PHY's answers are taken as given.
- The TTI read from the PHY on entry to processing is assumed to be below 10240.
- A processor counts as configured exactly when the loop configured it. `mbsfn_configured()` is assumed to turn true only through `configure_mbsfn`.
- Telemetry: the CINR, BLER and BER values, the log lines and the measurement file rows are not modelled. Only the tick and the count of measurement rows are. `sfn` is computed by the loop but never used.
- `sleep(1)` back-offs and all logging are left out.
- The sample rate that `set_params` stores is overwritten by the search rate before the SDR uses it. The model keeps this as written (`Properties.SampleRateOnlyReset`).

=== FILE: machine.dfy ===
/** The receiver's acquisition loop as a function on values: the state it keeps
    between iterations (`Snapshot`), the answers its collaborators give during
    one iteration (`Inputs`), and the effect of one iteration (`Next`).

    One iteration is one pass of the outer `for (;;)` while searching or
    syncing, and one pass of the inner `while (state == processing)` loop
    while processing. The SDR, the PHY, the RRC and the frame processors are
    not modelled; what the loop asks of them is recorded in logs, and what they
    answer is an input. */
module Machine {
  import opened Radio
  import opened Sync

  datatype RxState = Searching | Syncing | Processing

  /** Calls made on the SDR reader, in order. */
  datatype SdrEvent =
    | Start
    | Stop
    | Tune(frequency: nat, sampleRate: nat, bandwidth: nat, gain: real, antenna: string, agc: bool)
    | ClearBuffer
    | DisableFileWriting
    | EnableFileWriting

  /** The parts of the PHY's cell description that the loop reads. */
  datatype Cell = Cell(nofPrb: nat, mbsfnPrb: nat)

  /** Calls that change the configuration of the PHY, the RRC or the CAS processor. */
  datatype StackCall =
    | SyncAttempts(count: nat)
    | PhySetNofMbsfnPrb(prb: nat)
    | PhySetCell
    | PhyReset
    | RrcReset
    | CasSetCell(cell: Cell)

  /** What `set_cell` and `configure_mbsfn` gave an MBSFN processor. */
  datatype MbsfnConfig = MbsfnConfig(cell: Cell, areaId: nat, scs: Scs)

  /** An MBSFN frame processor as the loop sees it: its buffer lock and its
      MBSFN configuration (None until `mbsfn_configured()` would report true). */
  datatype Slot = Slot(locked: bool, config: Option<MbsfnConfig>)

  /** A decode task handed to the worker pool. */
  datatype Task = CasDecode(tti: Tti) | MbsfnDecode(slot: nat, tti: Tti)

  /** Settings fixed before the loop starts. `samplingFreqHz` stands for the
      library's PRB to sample rate table, which is not part of this model. */
  datatype Config = Config(
    searchSampleRate: nat,
    useAgc: bool,
    threadCnt: nat,
    measurementInterval: nat,
    sampleFile: bool,
    fileBw: nat,
    samplingFreqHz: nat -> nat)

  /** Decoding a recorded sample file at a given channel bandwidth. */
  predicate FileMode(c: Config)
  {
    c.sampleFile && c.fileBw != 0
  }

  /** What the collaborators answer during one iteration. A field is read only
      in the state and branch that calls the corresponding function. */
  datatype Inputs = Inputs(
    cellFound: bool,                   // phy.cell_search()
    nrPrb: nat,                        // phy.nr_prb()
    syncAttempt: nat -> bool,          // phy.synchronize_subframe(), per call of a pass
    phyTti: Tti,                       // phy.tti()
    cell: Cell,                        // phy.cell()
    isCasSubframe: Tti -> bool,        // phy.is_cas_subframe(tti)
    frameFetched: bool,                // phy.get_next_frame(...)
    nofMbsfnPrb: nat,                  // phy.nof_mbsfn_prb()
    mcchConfigured: bool,              // phy.mcch_configured()
    isMbsfnSubframe: Tti -> bool,      // phy.is_mbsfn_subframe(tti)
    mbsfnAreaId: nat,                  // phy.mbsfn_area_id()
    mbsfnSpacing: SubcarrierSpacing)   // phy.mbsfn_subcarrier_spacing()

  /** The loop's state: its locals, the globals it shares with the parameter
      callback, the MBSFN processors, and the logs of what it asked of others. */
  datatype Snapshot = Snapshot(
    state: RxState,
    tti: Tti,
    mbIdx: nat,
    tick: nat,
    restart: bool,
    frequency: nat,
    sampleRate: nat,
    bandwidth: nat,
    gain: real,
    antenna: string,
    casNofPrb: nat,
    mbsfnNofPrb: nat,
    slots: seq<Slot>,
    sdr: seq<SdrEvent>,
    calls: seq<StackCall>,
    submissions: seq<Task>,
    acquired: seq<nat>,
    measurements: nat)

  /** Default centre frequency and low-pass bandwidth of the SDR globals. */
  const DefaultFrequency: nat := 667000000
  const DefaultBandwidth: nat := 10000000

  predicate ValidConfig(c: Config)
  {
    c.threadCnt > 0 && c.measurementInterval > 0
  }

  /** What holds before and after every iteration. */
  predicate Inv(c: Config, s: Snapshot)
  {
    && ValidConfig(c)
    && |s.slots| == c.threadCnt
    && s.mbIdx < c.threadCnt
    && s.tick < Uint32Modulus
  }

  /** The state when the loop is first entered: searching, with every processor
      unlocked and unconfigured and the SDR started once. */
  function Initial(c: Config, gain: real, antenna: string): (s: Snapshot)
    requires ValidConfig(c)
    ensures Inv(c, s)
    ensures s.state == Searching && !s.restart && s.tti == 0 && s.mbIdx == 0 && s.tick == 0
    ensures s.frequency == DefaultFrequency && s.bandwidth == DefaultBandwidth
    ensures s.sampleRate == c.searchSampleRate && s.gain == gain && s.antenna == antenna
    ensures s.casNofPrb == 0 && s.mbsfnNofPrb == 0
    ensures forall i :: 0 <= i < |s.slots| ==> !s.slots[i].locked && s.slots[i].config == None
    ensures s.sdr == [Start]
    ensures s.calls == [] && s.submissions == [] && s.acquired == [] && s.measurements == 0
  {
    Snapshot(
      Searching, 0, 0, 0, false,
      DefaultFrequency, c.searchSampleRate, DefaultBandwidth, gain, antenna,
      0, 0,
      seq(c.threadCnt, _ => Slot(false, None)),
      [Start], [], [], [], 0)
  }

  /** The parameter callback: the whole tuple is replaced and a restart requested. */
  function SetParamsSpec(s: Snapshot, antenna: string, frequency: nat, gain: real, sampleRate: nat, bandwidth: nat): (r: Snapshot)
    ensures r.restart
    ensures r.frequency == frequency && r.sampleRate == sampleRate && r.bandwidth == bandwidth
    ensures r.gain == gain && r.antenna == antenna
    ensures r.(restart := s.restart, frequency := s.frequency, sampleRate := s.sampleRate,
               bandwidth := s.bandwidth, gain := s.gain, antenna := s.antenna) == s
  {
    s.(sampleRate := sampleRate, frequency := frequency, bandwidth := bandwidth,
       antenna := antenna, gain := gain, restart := true)
  }

  /** Stop the SDR, return to the search sample rate, retune at the current
      frequency and bandwidth, start again. */
  function SearchRetune(c: Config, s: Snapshot): (r: Snapshot)
    ensures r.sampleRate == c.searchSampleRate
    ensures r.sdr == s.sdr + [Stop, Tune(s.frequency, c.searchSampleRate, s.bandwidth, s.gain, s.antenna, c.useAgc), Start]
    ensures r.(sampleRate := s.sampleRate, sdr := s.sdr) == s
  {
    s.(sampleRate := c.searchSampleRate,
       sdr := s.sdr + [Stop, Tune(s.frequency, c.searchSampleRate, s.bandwidth, s.gain, s.antenna, c.useAgc), Start])
  }

  /** Loss of synchronisation while processing: retune for search, reset the RRC
      and the PHY, and go back to searching. */
  function LoseSync(c: Config, s: Snapshot): Snapshot
  {
    SearchRetune(c, s).(calls := s.calls + [RrcReset, PhyReset], state := Searching)
  }

  /** The start of every searching iteration: a pending restart is served by one
      retune at the search rate, sample-file writing stops, the restart flag is
      cleared and the receive buffer emptied. */
  function PrepareSearch(c: Config, s: Snapshot): Snapshot
  {
    var s1 := if s.restart then SearchRetune(c, s) else s;
    s1.(sdr := s1.sdr + [DisableFileWriting, ClearBuffer], restart := false)
  }

  /** A cell with `nrPrb` resource blocks was found: record the PRB counts, set the
      SDR (or, from a file, the PHY) up for it, and move on to syncing. */
  function AdoptCell(c: Config, s: Snapshot, nrPrb: nat): Snapshot
  {
    if FileMode(c) then
      s.(casNofPrb := nrPrb, mbsfnNofPrb := c.fileBw * 5,
         calls := s.calls + [PhySetNofMbsfnPrb(c.fileBw * 5), PhySetCell],
         state := Syncing)
    else
      var bw := LowPassBandwidth(nrPrb);
      s.(casNofPrb := nrPrb, mbsfnNofPrb := nrPrb, bandwidth := bw,
         sdr := s.sdr + [Stop, Tune(s.frequency, c.samplingFreqHz(nrPrb), bw, s.gain, s.antenna, c.useAgc), Start],
         state := Syncing)
  }

  /** One searching iteration. */
  function SearchStep(c: Config, s: Snapshot, inp: Inputs): Snapshot
  {
    var s1 := PrepareSearch(c, s);
    if inp.cellFound then AdoptCell(c, s1, inp.nrPrb) else s1
  }

  /** Every processor's lock released, configurations kept. */
  function Unlocked(slots: seq<Slot>): (r: seq<Slot>)
    ensures |r| == |slots|
    ensures forall i :: 0 <= i < |r| ==> !r[i].locked && r[i].config == slots[i].config
  {
    seq(|slots|, i requires 0 <= i < |slots| => slots[i].(locked := false))
  }

  /** Entry actions of processing once the PHY is synchronised: configure the CAS
      processor, unlock every MBSFN processor, seed the TTI from the PHY, reset the
      RRC and the round-robin index, and resume sample-file writing. */
  function EnterProcessing(c: Config, s: Snapshot, inp: Inputs): Snapshot
  {
    s.(calls := s.calls + [CasSetCell(inp.cell), RrcReset],
       slots := Unlocked(s.slots), tti := inp.phyTti, state := Processing, mbIdx := 0,
       sdr := s.sdr + [EnableFileWriting])
  }

  /** One syncing iteration: a bounded pass of synchronisation attempts, then,
      on success, the entry actions of processing. */
  function SyncStep(c: Config, s: Snapshot, inp: Inputs): Snapshot
  {
    var r := SyncOutcome(inp.syncAttempt);
    var s1 := s.(calls := s.calls + [SyncAttempts(r.calls)],
                 state := if r.maxFrames == 0 && !r.synced then Searching else s.state);
    if r.synced then EnterProcessing(c, s1, inp) else s1
  }

  /** The MBSFN region changed width: retune the SDR for it at the same frequency,
      reconfigure the PHY and the CAS processor, and resynchronise. */
  function ExtendPrb(c: Config, s: Snapshot, inp: Inputs): Snapshot
  {
    var prb := inp.nofMbsfnPrb;
    var bw := LowPassBandwidth(prb);
    s.(mbsfnNofPrb := prb, bandwidth := bw,
       sdr := s.sdr + [Stop, Tune(s.frequency, c.samplingFreqHz(prb), bw, s.gain, s.antenna, c.useAgc), Start],
       calls := s.calls + [PhySetCell, CasSetCell(inp.cell)],
       state := Syncing)
  }

  /** A CAS subframe, after the TTI has been advanced. */
  function CasSubframe(c: Config, s: Snapshot, inp: Inputs): Snapshot
  {
    if !s.restart && inp.frameFetched then
      var s1 := s.(submissions := s.submissions + [CasDecode(s.tti)]);
      if inp.nofMbsfnPrb != s1.mbsfnNofPrb then ExtendPrb(c, s1, inp) else s1
    else LoseSync(c, s)
  }

  /** The configuration a not yet configured MBSFN processor receives: the PHY's
      cell with `nof_prb` set to its MBSFN width, the area and the mapped spacing. */
  function SlotConfigFor(inp: Inputs): (m: MbsfnConfig)
    ensures m.cell.nofPrb == inp.cell.mbsfnPrb && m.cell.mbsfnPrb == inp.cell.mbsfnPrb
    ensures m.areaId == inp.mbsfnAreaId
    ensures ScsHz(m.scs) == SpacingHz(inp.mbsfnSpacing)
  {
    MbsfnConfig(inp.cell.(nofPrb := inp.cell.mbsfnPrb), inp.mbsfnAreaId, ToScs(inp.mbsfnSpacing))
  }

  /** An MBSFN subframe, after the TTI has been advanced. Processor `mbIdx` is
      locked when its buffer is taken; with usable data it is configured if need
      be and handed to the pool, without it is unlocked at once; a failed fetch
      leaves it locked. The index then moves on whatever happened. */
  function MbsfnSubframe(c: Config, s: Snapshot, inp: Inputs): Snapshot
    requires Inv(c, s)
  {
    var i := s.mbIdx;
    var s1 :=
      if s.restart then LoseSync(c, s)
      else
        var a := s.(slots := s.slots[i := s.slots[i].(locked := true)], acquired := s.acquired + [i]);
        if !inp.frameFetched then LoseSync(c, a)
        else if inp.mcchConfigured && inp.isMbsfnSubframe(s.tti) then
          var configured :=
            if a.slots[i].config == None then a.slots[i := a.slots[i].(config := Some(SlotConfigFor(inp)))]
            else a.slots;
          a.(slots := configured, submissions := a.submissions + [MbsfnDecode(i, s.tti)])
        else
          a.(slots := a.slots[i := a.slots[i].(locked := false)]);
    s1.(mbIdx := NextSlot(i, c.threadCnt))
  }

  /** One processing iteration: advance the TTI, handle the subframe, count the tick. */
  function ProcessStep(c: Config, s: Snapshot, inp: Inputs): Snapshot
    requires Inv(c, s)
  {
    var s0 := s.(tti := NextTti(s.tti));
    var s1 := if inp.isCasSubframe(s0.tti) then CasSubframe(c, s0, inp) else MbsfnSubframe(c, s0, inp);
    var tick := Inc32(s.tick);
    s1.(tick := tick,
        measurements := if tick % c.measurementInterval == 0 then s1.measurements + 1 else s1.measurements)
  }

  /** One iteration of the control loop. */
  function Next(c: Config, s: Snapshot, inp: Inputs): (r: Snapshot)
    requires Inv(c, s)
    ensures Inv(c, r)
  {
    match s.state
    case Searching => SearchStep(c, s, inp)
    case Syncing => SyncStep(c, s, inp)
    case Processing => ProcessStep(c, s, inp)
  }

  /** Taking the next MBSFN processor's buffer would have to wait: a decode task
      still holds its lock. */
  predicate AcquireBlocks(c: Config, s: Snapshot, inp: Inputs)
    requires Inv(c, s)
  {
    && s.state == Processing
    && !s.restart
    && !inp.isCasSubframe(NextTti(s.tti))
    && s.slots[s.mbIdx].locked
  }

  /** A decode task finished and released the processor it held. */
  function Release(c: Config, s: Snapshot, i: nat): (r: Snapshot)
    requires Inv(c, s) && i < |s.slots|
    ensures Inv(c, r)
    ensures !r.slots[i].locked && r.slots[i].config == s.slots[i].config
    ensures forall j :: 0 <= j < |s.slots| && j != i ==> r.slots[j] == s.slots[j]
    ensures r.(slots := s.slots) == s
  {
    s.(slots := s.slots[i := s.slots[i].(locked := false)])
  }

  /** The loop's state after a sequence of iterations. */
  function Run(c: Config, s: Snapshot, inps: seq<Inputs>): (r: Snapshot)
    requires Inv(c, s)
    ensures Inv(c, r)
    decreases |inps|
  {
    if inps == [] then s else Run(c, Next(c, s, inps[0]), inps[1..])
  }

  /** Every iteration from `s` along `inps`, and the state after it, is in processing. */
  ghost predicate StaysProcessing(c: Config, s: Snapshot, inps: seq<Inputs>)
    requires Inv(c, s)
    decreases |inps|
  {
    s.state == Processing && (inps == [] || StaysProcessing(c, Next(c, s, inps[0]), inps[1..]))
  }

  /** How many of the subframes after TTI `t` along `inps` are MBSFN subframes. */
  function MbsfnCount(t: Tti, inps: seq<Inputs>): (n: nat)
    ensures n <= |inps|
    decreases |inps|
  {
    if inps == [] then 0
    else (if inps[0].isCasSubframe(NextTti(t)) then 0 else 1) + MbsfnCount(NextTti(t), inps[1..])
  }

  /** What can happen next to the running loop: one iteration of it, or a decode
      task finishing and releasing the MBSFN processor it held. */
  datatype Event = Iterate(inp: Inputs) | Complete(slot: nat)

  /** The state after one event. A release of a processor that does not exist changes nothing. */
  function Apply(c: Config, s: Snapshot, e: Event): (r: Snapshot)
    requires Inv(c, s)
    ensures Inv(c, r)
  {
    match e
    case Iterate(inp) => Next(c, s, inp)
    case Complete(i) => if i < |s.slots| then Release(c, s, i) else s
  }

  /** An event the receiver can perform now: an iteration whose buffer acquisition
      does not block, or the release of a locked processor. */
  predicate Enabled(c: Config, s: Snapshot, e: Event)
    requires Inv(c, s)
  {
    match e
    case Iterate(inp) => !AcquireBlocks(c, s, inp)
    case Complete(i) => i < |s.slots| && s.slots[i].locked
  }

  /** The state after a sequence of loop iterations interleaved with decode completions. */
  function Execute(c: Config, s: Snapshot, evs: seq<Event>): (r: Snapshot)
    requires Inv(c, s)
    ensures Inv(c, r)
    decreases |evs|
  {
    if evs == [] then s else Execute(c, Apply(c, s, evs[0]), evs[1..])
  }

  /** The loop iterations among `evs`, in order. */
  function Iterations(evs: seq<Event>): (inps: seq<Inputs>)
    ensures |inps| <= |evs|
    decreases |evs|
  {
    if evs == [] then []
    else (if evs[0].Iterate? then [evs[0].inp] else []) + Iterations(evs[1..])
  }

  /** The state is in processing before and after every event along `evs`. */
  ghost predicate ExecStaysProcessing(c: Config, s: Snapshot, evs: seq<Event>)
    requires Inv(c, s)
    decreases |evs|
  {
    s.state == Processing && (evs == [] || ExecStaysProcessing(c, Apply(c, s, evs[0]), evs[1..]))
  }

  /** Every event along `evs` can happen when its turn comes. */
  ghost predicate Feasible(c: Config, s: Snapshot, evs: seq<Event>)
    requires Inv(c, s)
    decreases |evs|
  {
    evs == [] || (Enabled(c, s, evs[0]) && Feasible(c, Apply(c, s, evs[0]), evs[1..]))
  }
}

=== FILE: properties.dfy ===
/** What the acquisition loop guarantees, stated about `Machine.Next` (one
    iteration), `Machine.Run` (several), and `Machine.Release` and
    `Machine.Execute` (iterations with decode completions in between). */
module Properties {
  import opened Radio
  import opened Sync
  import opened Machine

  // ---------------------------------------------------------------------------
  // Transitions

  /** The only state changes: searching to syncing exactly when a cell is found;
      syncing to processing exactly when a synchronisation attempt of the pass
      succeeds, and never back to searching; processing to searching on a pending
      restart or a failed fetch, and to syncing exactly when a fetched CAS subframe
      comes with a different MBSFN width. Searching never leads to processing. */
  lemma Transitions(c: Config, s: Snapshot, inp: Inputs)
    requires Inv(c, s)
    ensures var r := Next(c, s, inp);
      && (s.state == Searching ==>
            (r.state == Syncing <==> inp.cellFound) && (r.state == Searching <==> !inp.cellFound))
      && (s.state == Syncing ==>
            (r.state == Processing <==> exists j :: 0 <= j < MaxSyncFrames && inp.syncAttempt(j))
            && r.state != Searching)
      && (s.state == Processing ==>
            var cas := inp.isCasSubframe(NextTti(s.tti));
            && (r.state == Searching <==> s.restart || !inp.frameFetched)
            && (r.state == Syncing <==>
                  cas && !s.restart && inp.frameFetched && inp.nofMbsfnPrb != s.mbsfnNofPrb))
  {
  }

  /** A syncing pass in which every attempt fails leaves the loop in syncing,
      with 200 attempts made and nothing else changed: the fall-back to searching
      is never taken. */
  lemma SyncFailureStaysSyncing(c: Config, s: Snapshot, inp: Inputs)
    requires Inv(c, s) && s.state == Syncing
    requires forall j :: 0 <= j < MaxSyncFrames ==> !inp.syncAttempt(j)
    ensures Next(c, s, inp) == s.(calls := s.calls + [SyncAttempts(MaxSyncFrames)])
  {
    assert !SyncOutcome(inp.syncAttempt).synced;
  }

  // ---------------------------------------------------------------------------
  // TTI counter

  /** The TTI changes only by advancing one subframe while processing, or by being
      seeded from the PHY on entry to processing. */
  lemma TtiUpdate(c: Config, s: Snapshot, inp: Inputs)
    requires Inv(c, s)
    ensures var r := Next(c, s, inp);
      && (s.state == Processing ==> r.tti == NextTti(s.tti))
      && (s.state == Searching ==> r.tti == s.tti)
      && (s.state == Syncing ==> r.tti == if r.state == Processing then inp.phyTti else s.tti)
  {
  }

  /** While the loop stays in processing, the TTI advances by exactly one subframe
      per iteration, wrapping after 10239. */
  lemma {:induction false} RunAdvancesTti(c: Config, s: Snapshot, inps: seq<Inputs>)
    requires Inv(c, s) && StaysProcessing(c, s, inps)
    ensures Run(c, s, inps).tti == TtiAfter(s.tti, |inps|)
    ensures Run(c, s, inps).tti == (s.tti + |inps|) % TtiCount
    decreases |inps|
  {
    RunTtiAlong(c, s, inps);
    TtiAfterClosedForm(s.tti, |inps|);
  }

  /** The induction behind `RunAdvancesTti`. */
  lemma {:induction false} RunTtiAlong(c: Config, s: Snapshot, inps: seq<Inputs>)
    requires Inv(c, s) && StaysProcessing(c, s, inps)
    ensures Run(c, s, inps).tti == TtiAfter(s.tti, |inps|)
    decreases |inps|
  {
    if inps != [] {
      var s1 := Next(c, s, inps[0]);
      assert Run(c, s, inps) == Run(c, s1, inps[1..]);
      NextRoundRobinStep(c, s, inps[0]);
      RunTtiAlong(c, s1, inps[1..]);
    }
  }

  // ---------------------------------------------------------------------------
  // Round-robin choice of MBSFN processor

  /** Entering processing restarts the round robin at processor 0 with every
      processor unlocked and its configuration kept. */
  lemma EnterProcessingResets(c: Config, s: Snapshot, inp: Inputs)
    requires Inv(c, s) && s.state != Processing
    ensures var r := Next(c, s, inp);
      r.state == Processing ==>
        && s.state == Syncing
        && r.mbIdx == 0 && r.tti == inp.phyTti
        && |r.slots| == |s.slots|
        && forall i :: 0 <= i < |r.slots| ==> !r.slots[i].locked && r.slots[i].config == s.slots[i].config
  {
  }

  /** Every MBSFN subframe moves the round robin on by one, whatever the fetch and
      the decode configuration gave; a CAS subframe leaves it where it is. */
  lemma SlotIndexAdvance(c: Config, s: Snapshot, inp: Inputs)
    requires Inv(c, s) && s.state == Processing
    ensures var r := Next(c, s, inp);
      if inp.isCasSubframe(NextTti(s.tti)) then r.mbIdx == s.mbIdx
      else r.mbIdx == NextSlot(s.mbIdx, c.threadCnt)
  {
  }

  /** While the loop stays in processing, the MBSFN subframes take the buffers of
      processors `mbIdx`, `mbIdx + 1`, ... in round-robin order, one per subframe. */
  lemma {:induction false} RoundRobin(c: Config, s: Snapshot, inps: seq<Inputs>)
    requires Inv(c, s) && StaysProcessing(c, s, inps)
    ensures var r := Run(c, s, inps);
      var k := MbsfnCount(s.tti, inps);
      && r.mbIdx == SlotAfter(s.mbIdx, k, c.threadCnt)
      && r.mbIdx == (s.mbIdx + k) % c.threadCnt
      && r.acquired == s.acquired + RoundRobinFrom(s.mbIdx, k, c.threadCnt)
  {
    RoundRobinAlong(c, s, inps);
    SlotAfterClosedForm(s.mbIdx, MbsfnCount(s.tti, inps), c.threadCnt);
  }

  /** The induction behind `RoundRobin`. */
  lemma {:induction false} RoundRobinAlong(c: Config, s: Snapshot, inps: seq<Inputs>)
    requires Inv(c, s) && StaysProcessing(c, s, inps)
    ensures var r := Run(c, s, inps);
      var k := MbsfnCount(s.tti, inps);
      && r.mbIdx == SlotAfter(s.mbIdx, k, c.threadCnt)
      && r.acquired == s.acquired + RoundRobinFrom(s.mbIdx, k, c.threadCnt)
    decreases |inps|
  {
    if inps != [] {
      var s1 := Next(c, s, inps[0]);
      assert Run(c, s, inps) == Run(c, s1, inps[1..]);
      NextRoundRobinStep(c, s, inps[0]);
      RoundRobinAlong(c, s1, inps[1..]);
      if !inps[0].isCasSubframe(NextTti(s.tti)) {
        RoundRobinPrepend(s.acquired, s.mbIdx, MbsfnCount(s1.tti, inps[1..]), c.threadCnt);
      }
    }
  }

  /** One iteration's effect on the round robin while the loop stays in
      processing: an MBSFN subframe takes the current processor and moves the
      index on, a CAS subframe leaves both alone; the TTI moves on by one. */
  lemma NextRoundRobinStep(c: Config, s: Snapshot, inp: Inputs)
    requires Inv(c, s) && s.state == Processing && Next(c, s, inp).state == Processing
    ensures var s1 := Next(c, s, inp);
      && s1.tti == NextTti(s.tti)
      && if inp.isCasSubframe(NextTti(s.tti)) then
           s1.acquired == s.acquired && s1.mbIdx == s.mbIdx
         else
           s1.acquired == s.acquired + [s.mbIdx] && s1.mbIdx == NextSlot(s.mbIdx, c.threadCnt)
  {
  }

  /** From a fresh entry into processing, the first `n` MBSFN subframes (n the number
      of processors) use processors 0, 1, ..., n-1, and the next ones start over at 0. */
  lemma RoundRobinFromEntry(c: Config, s: Snapshot, inps: seq<Inputs>)
    requires Inv(c, s) && StaysProcessing(c, s, inps) && s.mbIdx == 0
    ensures var r := Run(c, s, inps);
      var k := MbsfnCount(s.tti, inps);
      && |r.acquired| == |s.acquired| + k
      && (forall j :: 0 <= j < k && j < c.threadCnt ==> r.acquired[|s.acquired|..][j] == j)
      && (k >= c.threadCnt ==>
            r.acquired[|s.acquired|..] == RoundRobinFrom(0, c.threadCnt, c.threadCnt) + RoundRobinFrom(0, k - c.threadCnt, c.threadCnt))
  {
    RoundRobin(c, s, inps);
    var r := Run(c, s, inps);
    var k := MbsfnCount(s.tti, inps);
    assert r.acquired[|s.acquired|..] == RoundRobinFrom(0, k, c.threadCnt);
    RoundRobinFromZero(k, c.threadCnt);
  }

  // ---------------------------------------------------------------------------
  // Processor locks

  /** Across one iteration (taken when the next processor's buffer is free), a
      processor becomes locked only by the MBSFN subframe that takes its buffer,
      and becomes unlocked only on entry to processing. */
  lemma LockTransitions(c: Config, s: Snapshot, inp: Inputs)
    requires Inv(c, s) && !AcquireBlocks(c, s, inp)
    ensures var r := Next(c, s, inp);
      && |r.slots| == |s.slots|
      && (forall j :: 0 <= j < |s.slots| && !s.slots[j].locked && r.slots[j].locked ==>
            s.state == Processing && j == s.mbIdx && r.acquired == s.acquired + [j])
      && (forall j :: 0 <= j < |s.slots| && s.slots[j].locked && !r.slots[j].locked ==>
            s.state == Syncing && r.state == Processing)
  {
  }

  /** An MBSFN subframe without a pending restart takes the buffer of processor
      `mbIdx`. A good fetch of a subframe the PHY can decode hands the processor to
      the pool once, configured first if it was not; a good fetch of anything else
      unlocks it at once; a failed fetch leaves it locked and goes back to
      searching. No other processor changes. */
  lemma MbsfnDispatch(c: Config, s: Snapshot, inp: Inputs)
    requires Inv(c, s) && s.state == Processing && !s.restart
    requires !inp.isCasSubframe(NextTti(s.tti))
    ensures var r := Next(c, s, inp);
      var i := s.mbIdx;
      var t := NextTti(s.tti);
      && |r.slots| == |s.slots|
      && r.acquired == s.acquired + [i]
      && (forall j :: 0 <= j < |s.slots| && j != i ==> r.slots[j] == s.slots[j])
      && (inp.frameFetched && inp.mcchConfigured && inp.isMbsfnSubframe(t) ==>
            && r.slots[i].locked
            && r.submissions == s.submissions + [MbsfnDecode(i, t)]
            && r.slots[i].config == (if s.slots[i].config == None then Some(SlotConfigFor(inp)) else s.slots[i].config)
            && r.state == Processing)
      && (inp.frameFetched && !(inp.mcchConfigured && inp.isMbsfnSubframe(t)) ==>
            && !r.slots[i].locked
            && r.slots[i].config == s.slots[i].config
            && r.submissions == s.submissions
            && r.state == Processing)
      && (!inp.frameFetched ==>
            && r.slots[i].locked
            && r.slots[i].config == s.slots[i].config
            && r.submissions == s.submissions
            && r.state == Searching)
  {
  }

  /** A processor is configured at most once: a configuration, once given, is
      never replaced by the loop. */
  lemma ConfigurationKept(c: Config, s: Snapshot, inp: Inputs)
    requires Inv(c, s)
    ensures var r := Next(c, s, inp);
      forall j :: 0 <= j < |s.slots| && s.slots[j].config != None ==> r.slots[j].config == s.slots[j].config
  {
  }

  /** Searching and an unsuccessful syncing pass leave every processor as it was,
      so a processor left locked by a failed fetch stays locked until the next
      entry to processing. */
  lemma SlotsUntouchedOutsideProcessing(c: Config, s: Snapshot, inp: Inputs)
    requires Inv(c, s) && s.state != Processing
    ensures var r := Next(c, s, inp);
      r.state != Processing ==> r.slots == s.slots && r.submissions == s.submissions && r.acquired == s.acquired
  {
  }

  // ---------------------------------------------------------------------------
  // Restart requests

  /** A pending restart is served in searching by one stop/tune/start cycle at the
      search sample rate, with the parameters of the request, and is then cleared. */
  lemma SearchServesRestart(c: Config, s: Snapshot, inp: Inputs)
    requires Inv(c, s) && s.state == Searching && s.restart
    ensures var r := Next(c, s, inp);
      && !r.restart
      && |r.sdr| >= |s.sdr| + 5
      && r.sdr[..|s.sdr| + 5] == s.sdr + [Stop, Tune(s.frequency, c.searchSampleRate, s.bandwidth, s.gain, s.antenna, c.useAgc), Start, DisableFileWriting, ClearBuffer]
  {
  }

  /** Only searching clears the restart flag. */
  lemma OnlySearchClearsRestart(c: Config, s: Snapshot, inp: Inputs)
    requires Inv(c, s) && s.state != Searching
    ensures Next(c, s, inp).restart == s.restart
  {
  }

  /** A pending restart in processing ends processing before any frame is fetched
      or any processor locked: the outcome does not depend on what a fetch would
      have returned, nothing is submitted and the loop goes back to searching. */
  lemma RestartPreemptsProcessing(c: Config, s: Snapshot, inp: Inputs, fetched: bool)
    requires Inv(c, s) && s.state == Processing && s.restart
    ensures Next(c, s, inp) == Next(c, s, inp.(frameFetched := fetched))
    ensures var r := Next(c, s, inp);
      && r.state == Searching
      && r.slots == s.slots && r.acquired == s.acquired && r.submissions == s.submissions
  {
  }

  /** A restart requested while the loop is syncing is not served as long as the
      synchronisation attempts fail: the loop stays in syncing, the flag stays set
      and the SDR is not retuned, however many passes fail. */
  lemma {:induction false} RestartStarvedByFailingSync(c: Config, s: Snapshot, inps: seq<Inputs>)
    requires Inv(c, s) && s.state == Syncing && s.restart
    requires forall k, j :: 0 <= k < |inps| && 0 <= j < MaxSyncFrames ==> !inps[k].syncAttempt(j)
    ensures var r := Run(c, s, inps);
      && r.state == Syncing && r.restart
      && r.sdr == s.sdr && r.frequency == s.frequency
      && r.slots == s.slots && r.submissions == s.submissions
    decreases |inps|
  {
    if inps != [] {
      SyncFailureStaysSyncing(c, s, inps[0]);
      RestartStarvedByFailingSync(c, Next(c, s, inps[0]), inps[1..]);
    }
  }

  /** The second of two parameter requests replaces the first entirely. */
  lemma SetParamsOverwrites(s: Snapshot, a1: string, f1: nat, g1: real, sr1: nat, bw1: nat,
                            a2: string, f2: nat, g2: real, sr2: nat, bw2: nat)
    ensures SetParamsSpec(SetParamsSpec(s, a1, f1, g1, sr1, bw1), a2, f2, g2, sr2, bw2)
         == SetParamsSpec(s, a2, f2, g2, sr2, bw2)
  {
  }

  /** Two identical parameter requests before searching runs cause one retune, not
      two: after two searching iterations that find no cell, the SDR log holds a
      single stop/tune/start cycle. */
  lemma DoubleRequestRetunesOnce(c: Config, s: Snapshot, a: string, f: nat, g: real, sr: nat, bw: nat,
                                 inp1: Inputs, inp2: Inputs)
    requires Inv(c, s) && s.state == Searching
    requires !inp1.cellFound && !inp2.cellFound
    ensures var s1 := SetParamsSpec(SetParamsSpec(s, a, f, g, sr, bw), a, f, g, sr, bw);
      var r := Next(c, Next(c, s1, inp1), inp2);
      r.sdr == s.sdr + [Stop, Tune(f, c.searchSampleRate, bw, g, a, c.useAgc), Start,
                        DisableFileWriting, ClearBuffer, DisableFileWriting, ClearBuffer]
  {
    var s1 := SetParamsSpec(SetParamsSpec(s, a, f, g, sr, bw), a, f, g, sr, bw);
    var r1 := Next(c, s1, inp1);
    assert r1.sdr == s.sdr + [Stop, Tune(f, c.searchSampleRate, bw, g, a, c.useAgc), Start, DisableFileWriting, ClearBuffer];
    assert !r1.restart && r1.state == Searching;
  }

  // ---------------------------------------------------------------------------
  // PRB bookkeeping and retuning

  /** A cell found with `nrPrb` resource blocks sets both PRB counts to it (the MBSFN
      count to the file's bandwidth times 5 when decoding a file). Live, the SDR is
      stopped, retuned at the unchanged frequency for the sample rate and the 20%
      guarded bandwidth of those PRBs, and started; from a file it is not retuned. */
  lemma CellFoundBookkeeping(c: Config, s: Snapshot, inp: Inputs)
    requires Inv(c, s) && s.state == Searching && inp.cellFound
    ensures var r := Next(c, s, inp);
      var p := PrepareSearch(c, s);
      && r.state == Syncing
      && r.casNofPrb == inp.nrPrb
      && r.frequency == s.frequency
      && (FileMode(c) ==>
            && r.mbsfnNofPrb == c.fileBw * 5
            && r.sdr == p.sdr && r.bandwidth == p.bandwidth
            && r.calls == s.calls + [PhySetNofMbsfnPrb(c.fileBw * 5), PhySetCell])
      && (!FileMode(c) ==>
            && r.mbsfnNofPrb == inp.nrPrb
            && r.bandwidth == LowPassBandwidth(inp.nrPrb)
            && r.sdr == p.sdr + [Stop, Tune(s.frequency, c.samplingFreqHz(inp.nrPrb), LowPassBandwidth(inp.nrPrb), s.gain, s.antenna, c.useAgc), Start])
  {
  }

  /** A different MBSFN PRB count reported after a CAS subframe, wider or narrower:
      the new count is recorded, the SDR is stopped, retuned at the same frequency
      for the new count's sample rate and guarded bandwidth, and started; the CAS
      count stays; the loop resynchronises. */
  lemma PrbExtension(c: Config, s: Snapshot, inp: Inputs)
    requires Inv(c, s) && s.state == Processing && !s.restart
    requires inp.isCasSubframe(NextTti(s.tti)) && inp.frameFetched
    requires inp.nofMbsfnPrb != s.mbsfnNofPrb
    ensures var r := Next(c, s, inp);
      var prb := inp.nofMbsfnPrb;
      && r.state == Syncing
      && r.mbsfnNofPrb == prb
      && r.casNofPrb == s.casNofPrb
      && r.frequency == s.frequency
      && r.bandwidth == LowPassBandwidth(prb)
      && r.sdr == s.sdr + [Stop, Tune(s.frequency, c.samplingFreqHz(prb), LowPassBandwidth(prb), s.gain, s.antenna, c.useAgc), Start]
      && r.calls == s.calls + [PhySetCell, CasSetCell(inp.cell)]
      && r.submissions == s.submissions + [CasDecode(NextTti(s.tti))]
  {
  }

  /** The CAS width changes only when a cell is found. */
  lemma CasPrbOnlyFromSearch(c: Config, s: Snapshot, inp: Inputs)
    requires Inv(c, s)
    ensures var r := Next(c, s, inp);
      r.casNofPrb != s.casNofPrb ==> s.state == Searching && inp.cellFound && r.casNofPrb == inp.nrPrb
  {
  }

  /** The loop sets the sample-rate global only back to the search rate; the
      operating rates it tunes to are never stored there. */
  lemma SampleRateOnlyReset(c: Config, s: Snapshot, inp: Inputs)
    requires Inv(c, s)
    ensures var r := Next(c, s, inp);
      r.sampleRate == s.sampleRate || r.sampleRate == c.searchSampleRate
  {
  }

  // ---------------------------------------------------------------------------
  // Centre frequency

  /** No tune in `log` uses a frequency other than `f`. */
  ghost predicate TunesAt(log: seq<SdrEvent>, f: nat)
  {
    forall i :: 0 <= i < |log| && log[i].Tune? ==> log[i].frequency == f
  }

  /** From `s` to `r` the centre frequency is kept, the SDR log only grows, and
      every tune added is at that frequency. */
  ghost predicate KeepsFrequency(s: Snapshot, r: Snapshot)
  {
    && r.frequency == s.frequency
    && |s.sdr| <= |r.sdr| && r.sdr[..|s.sdr|] == s.sdr
    && TunesAt(r.sdr[|s.sdr|..], s.frequency)
  }

  lemma AppendKeepsFrequency(s: Snapshot, r: Snapshot, events: seq<SdrEvent>)
    requires r.frequency == s.frequency && r.sdr == s.sdr + events
    requires TunesAt(events, s.frequency)
    ensures KeepsFrequency(s, r)
  {
    assert r.sdr[..|s.sdr|] == s.sdr;
    assert r.sdr[|s.sdr|..] == events;
  }

  lemma KeepsFrequencyTrans(s0: Snapshot, s1: Snapshot, s2: Snapshot)
    requires KeepsFrequency(s0, s1) && KeepsFrequency(s1, s2)
    ensures KeepsFrequency(s0, s2)
  {
    assert s2.sdr[..|s1.sdr|][..|s0.sdr|] == s2.sdr[..|s0.sdr|];
    assert s2.sdr[|s0.sdr|..] == s1.sdr[|s0.sdr|..] + s2.sdr[|s1.sdr|..];
  }

  lemma RetuneKeepsFrequency(c: Config, s: Snapshot)
    ensures KeepsFrequency(s, SearchRetune(c, s))
    ensures KeepsFrequency(s, LoseSync(c, s))
  {
    AppendKeepsFrequency(s, SearchRetune(c, s),
      [Stop, Tune(s.frequency, c.searchSampleRate, s.bandwidth, s.gain, s.antenna, c.useAgc), Start]);
    AppendKeepsFrequency(s, LoseSync(c, s),
      [Stop, Tune(s.frequency, c.searchSampleRate, s.bandwidth, s.gain, s.antenna, c.useAgc), Start]);
  }

  lemma SearchKeepsFrequency(c: Config, s: Snapshot, inp: Inputs)
    ensures KeepsFrequency(s, SearchStep(c, s, inp))
  {
    var s0 := if s.restart then SearchRetune(c, s) else s;
    var s1 := PrepareSearch(c, s);
    if s.restart {
      RetuneKeepsFrequency(c, s);
    } else {
      AppendKeepsFrequency(s, s0, []);
    }
    AppendKeepsFrequency(s0, s1, [DisableFileWriting, ClearBuffer]);
    KeepsFrequencyTrans(s, s0, s1);
    if inp.cellFound {
      var r := AdoptCell(c, s1, inp.nrPrb);
      if FileMode(c) {
        AppendKeepsFrequency(s1, r, []);
      } else {
        var bw := LowPassBandwidth(inp.nrPrb);
        AppendKeepsFrequency(s1, r,
          [Stop, Tune(s1.frequency, c.samplingFreqHz(inp.nrPrb), bw, s1.gain, s1.antenna, c.useAgc), Start]);
      }
      KeepsFrequencyTrans(s, s1, r);
    }
  }

  lemma SyncKeepsFrequency(c: Config, s: Snapshot, inp: Inputs)
    ensures KeepsFrequency(s, SyncStep(c, s, inp))
  {
    var o := SyncOutcome(inp.syncAttempt);
    var s1 := s.(calls := s.calls + [SyncAttempts(o.calls)],
                 state := if o.maxFrames == 0 && !o.synced then Searching else s.state);
    AppendKeepsFrequency(s, s1, []);
    if o.synced {
      AppendKeepsFrequency(s1, EnterProcessing(c, s1, inp), [EnableFileWriting]);
      KeepsFrequencyTrans(s, s1, EnterProcessing(c, s1, inp));
    }
  }

  lemma CasKeepsFrequency(c: Config, s: Snapshot, inp: Inputs)
    ensures KeepsFrequency(s, CasSubframe(c, s, inp))
  {
    if !s.restart && inp.frameFetched {
      var s1 := s.(submissions := s.submissions + [CasDecode(s.tti)]);
      AppendKeepsFrequency(s, s1, []);
      if inp.nofMbsfnPrb != s1.mbsfnNofPrb {
        var prb := inp.nofMbsfnPrb;
        AppendKeepsFrequency(s1, ExtendPrb(c, s1, inp),
          [Stop, Tune(s1.frequency, c.samplingFreqHz(prb), LowPassBandwidth(prb), s1.gain, s1.antenna, c.useAgc), Start]);
        KeepsFrequencyTrans(s, s1, ExtendPrb(c, s1, inp));
      }
    } else {
      RetuneKeepsFrequency(c, s);
    }
  }

  lemma MbsfnKeepsFrequency(c: Config, s: Snapshot, inp: Inputs)
    requires Inv(c, s)
    ensures KeepsFrequency(s, MbsfnSubframe(c, s, inp))
  {
    var i := s.mbIdx;
    var r := MbsfnSubframe(c, s, inp);
    if s.restart {
      RetuneKeepsFrequency(c, s);
      AppendKeepsFrequency(LoseSync(c, s), r, []);
      KeepsFrequencyTrans(s, LoseSync(c, s), r);
    } else {
      var a := s.(slots := s.slots[i := s.slots[i].(locked := true)], acquired := s.acquired + [i]);
      if !inp.frameFetched {
        RetuneKeepsFrequency(c, a);
        AppendKeepsFrequency(LoseSync(c, a), r, []);
        KeepsFrequencyTrans(a, LoseSync(c, a), r);
      } else {
        AppendKeepsFrequency(a, r, []);
      }
      AppendKeepsFrequency(s, a, []);
      KeepsFrequencyTrans(s, a, r);
    }
  }

  /** One iteration keeps the centre frequency, only appends to the SDR log, and
      every tune it adds is at that frequency. */
  lemma StepKeepsFrequency(c: Config, s: Snapshot, inp: Inputs)
    requires Inv(c, s)
    ensures KeepsFrequency(s, Next(c, s, inp))
  {
    match s.state
    case Searching => SearchKeepsFrequency(c, s, inp);
    case Syncing => SyncKeepsFrequency(c, s, inp);
    case Processing =>
      var s0 := s.(tti := NextTti(s.tti));
      var s1 := if inp.isCasSubframe(s0.tti) then CasSubframe(c, s0, inp) else MbsfnSubframe(c, s0, inp);
      if inp.isCasSubframe(s0.tti) {
        CasKeepsFrequency(c, s0, inp);
      } else {
        MbsfnKeepsFrequency(c, s0, inp);
      }
      AppendKeepsFrequency(s, s0, []);
      KeepsFrequencyTrans(s, s0, s1);
      AppendKeepsFrequency(s1, Next(c, s, inp), []);
      KeepsFrequencyTrans(s, s1, Next(c, s, inp));
  }

  /** Any number of iterations keep the centre frequency, and every tune they make
      is at that frequency: only the parameter callback moves the receiver. */
  lemma {:induction false} RunKeepsFrequency(c: Config, s: Snapshot, inps: seq<Inputs>)
    requires Inv(c, s)
    ensures KeepsFrequency(s, Run(c, s, inps))
    decreases |inps|
  {
    if inps == [] {
      AppendKeepsFrequency(s, s, []);
    } else {
      var s1 := Next(c, s, inps[0]);
      StepKeepsFrequency(c, s, inps[0]);
      RunKeepsFrequency(c, s1, inps[1..]);
      KeepsFrequencyTrans(s, s1, Run(c, s, inps));
    }
  }

  /** Without a parameter request, every tune the loop makes is at the built-in
      default frequency, whatever centre frequencies were configured. */
  lemma LoopUsesDefaultFrequency(c: Config, gain: real, antenna: string, inps: seq<Inputs>)
    requires ValidConfig(c)
    ensures TunesAt(Run(c, Initial(c, gain, antenna), inps).sdr, DefaultFrequency)
  {
    var s := Initial(c, gain, antenna);
    RunKeepsFrequency(c, s, inps);
    var r := Run(c, s, inps);
    assert r.sdr == s.sdr + r.sdr[|s.sdr|..];
  }

  // ---------------------------------------------------------------------------
  // Runs with decode completions

  /** What one iteration leaves behind, up to the processors' locks. */
  ghost predicate SameUpToLocks(r: Snapshot, r': Snapshot)
  {
    && r'.(slots := r.slots) == r
    && |r'.slots| == |r.slots|
    && forall k :: 0 <= k < |r.slots| ==> r'.slots[k].config == r.slots[k].config
  }

  /** A decode task finishing before an iteration changes nothing of that
      iteration's outcome except the processors' locks. */
  lemma ReleaseThenNext(c: Config, s: Snapshot, j: nat, inp: Inputs)
    requires Inv(c, s) && j < |s.slots|
    ensures SameUpToLocks(Next(c, s, inp), Next(c, Release(c, s, j), inp))
  {
    var s' := Release(c, s, j);
    match s.state
    case Searching =>
    case Syncing =>
    case Processing =>
      var s0 := s.(tti := NextTti(s.tti));
      var s0' := s'.(tti := NextTti(s.tti));
      assert s0' == Release(c, s0, j);
      if inp.isCasSubframe(s0.tti) {
        ReleaseThenCas(c, s0, j, inp);
      } else {
        ReleaseThenMbsfn(c, s0, j, inp);
      }
  }

  /** `ReleaseThenNext` for a CAS subframe. */
  lemma ReleaseThenCas(c: Config, s: Snapshot, j: nat, inp: Inputs)
    requires Inv(c, s) && j < |s.slots|
    ensures SameUpToLocks(CasSubframe(c, s, inp), CasSubframe(c, Release(c, s, j), inp))
  {
  }

  /** `ReleaseThenNext` for an MBSFN subframe. */
  lemma ReleaseThenMbsfn(c: Config, s: Snapshot, j: nat, inp: Inputs)
    requires Inv(c, s) && j < |s.slots|
    ensures SameUpToLocks(MbsfnSubframe(c, s, inp), MbsfnSubframe(c, Release(c, s, j), inp))
  {
  }

  /** The count of MBSFN subframes is 0 exactly when every subframe is a CAS
      subframe, and the number of iterations exactly when none is. */
  lemma {:induction false} MbsfnCountCounts(t: Tti, inps: seq<Inputs>)
    ensures MbsfnCount(t, inps) == 0 <==>
      forall j :: 0 <= j < |inps| ==> inps[j].isCasSubframe(TtiAfter(t, j + 1))
    ensures MbsfnCount(t, inps) == |inps| <==>
      forall j :: 0 <= j < |inps| ==> !inps[j].isCasSubframe(TtiAfter(t, j + 1))
    decreases |inps|
  {
    if inps != [] {
      MbsfnCountCounts(NextTti(t), inps[1..]);
      assert forall j :: 0 <= j < |inps| - 1 ==> inps[1..][j] == inps[j + 1];
    }
  }

  /** An iteration that would block on a locked processor can go ahead once that
      processor's decode task has finished. */
  lemma ReleaseUnblocks(c: Config, s: Snapshot, inp: Inputs)
    requires Inv(c, s) && AcquireBlocks(c, s, inp)
    ensures Enabled(c, s, Complete(s.mbIdx))
    ensures Enabled(c, Apply(c, s, Complete(s.mbIdx)), Iterate(inp))
  {
  }

  /** A run of iterations alone is the run of the same iterations with no decode
      completing in between. */
  lemma {:induction false} RunIsExecute(c: Config, s: Snapshot, inps: seq<Inputs>)
    requires Inv(c, s)
    ensures Run(c, s, inps) == Execute(c, s, seq(|inps|, k requires 0 <= k < |inps| => Iterate(inps[k])))
    ensures Iterations(seq(|inps|, k requires 0 <= k < |inps| => Iterate(inps[k]))) == inps
    decreases |inps|
  {
    var evs := seq(|inps|, k requires 0 <= k < |inps| => Iterate(inps[k]));
    if inps != [] {
      RunIsExecute(c, Next(c, s, inps[0]), inps[1..]);
      assert evs[1..] == seq(|inps[1..]|, k requires 0 <= k < |inps[1..]| => Iterate(inps[1..][k]));
      assert inps == [inps[0]] + inps[1..];
    }
  }

  /** With decode completions interleaved, the TTI still advances by exactly one
      subframe per loop iteration while the loop stays in processing. */
  lemma {:induction false} ExecuteAdvancesTti(c: Config, s: Snapshot, evs: seq<Event>)
    requires Inv(c, s) && ExecStaysProcessing(c, s, evs)
    ensures Execute(c, s, evs).tti == TtiAfter(s.tti, |Iterations(evs)|)
    ensures Execute(c, s, evs).tti == (s.tti + |Iterations(evs)|) % TtiCount
    decreases |evs|
  {
    ExecuteTtiAlong(c, s, evs);
    TtiAfterClosedForm(s.tti, |Iterations(evs)|);
  }

  /** The induction behind `ExecuteAdvancesTti`. */
  lemma {:induction false} ExecuteTtiAlong(c: Config, s: Snapshot, evs: seq<Event>)
    requires Inv(c, s) && ExecStaysProcessing(c, s, evs)
    ensures Execute(c, s, evs).tti == TtiAfter(s.tti, |Iterations(evs)|)
    decreases |evs|
  {
    if evs != [] {
      var s1 := Apply(c, s, evs[0]);
      assert Execute(c, s, evs) == Execute(c, s1, evs[1..]);
      ApplyRoundRobinStep(c, s, evs[0]);
      ExecuteTtiAlong(c, s1, evs[1..]);
      assert |Iterations(evs)| == (if evs[0].Iterate? then 1 else 0) + |Iterations(evs[1..])|;
    }
  }

  /** With decode completions interleaved, the MBSFN subframes still take the
      processors in round-robin order from the current index, one per subframe. */
  lemma {:induction false} RoundRobinWithReleases(c: Config, s: Snapshot, evs: seq<Event>)
    requires Inv(c, s) && ExecStaysProcessing(c, s, evs)
    ensures var r := Execute(c, s, evs);
      var k := MbsfnCount(s.tti, Iterations(evs));
      && r.mbIdx == SlotAfter(s.mbIdx, k, c.threadCnt)
      && r.mbIdx == (s.mbIdx + k) % c.threadCnt
      && r.acquired == s.acquired + RoundRobinFrom(s.mbIdx, k, c.threadCnt)
  {
    RoundRobinAlongEvents(c, s, evs);
    SlotAfterClosedForm(s.mbIdx, MbsfnCount(s.tti, Iterations(evs)), c.threadCnt);
  }

  /** The induction behind `RoundRobinWithReleases`. */
  lemma {:induction false} RoundRobinAlongEvents(c: Config, s: Snapshot, evs: seq<Event>)
    requires Inv(c, s) && ExecStaysProcessing(c, s, evs)
    ensures var r := Execute(c, s, evs);
      var k := MbsfnCount(s.tti, Iterations(evs));
      && r.mbIdx == SlotAfter(s.mbIdx, k, c.threadCnt)
      && r.acquired == s.acquired + RoundRobinFrom(s.mbIdx, k, c.threadCnt)
    decreases |evs|
  {
    if evs != [] {
      var s1 := Apply(c, s, evs[0]);
      assert Execute(c, s, evs) == Execute(c, s1, evs[1..]);
      ApplyRoundRobinStep(c, s, evs[0]);
      RoundRobinAlongEvents(c, s1, evs[1..]);
      MbsfnCountIterations(s.tti, evs);
      if evs[0].Iterate? && !evs[0].inp.isCasSubframe(NextTti(s.tti)) {
        RoundRobinPrepend(s.acquired, s.mbIdx, MbsfnCount(s1.tti, Iterations(evs[1..])), c.threadCnt);
      }
    }
  }

  /** Taking processor `i` and then `k` more in turn is taking `k + 1` in turn from `i`. */
  lemma RoundRobinPrepend(acquired: seq<nat>, i: nat, k: nat, n: nat)
    requires n > 0
    ensures acquired + [i] + RoundRobinFrom(NextSlot(i, n), k, n) == acquired + RoundRobinFrom(i, 1 + k, n)
    ensures SlotAfter(NextSlot(i, n), k, n) == SlotAfter(i, 1 + k, n)
  {
    assert RoundRobinFrom(i, 1 + k, n) == [i] + RoundRobinFrom(NextSlot(i, n), k, n);
  }

  /** One event's effect on the round robin: an MBSFN iteration takes the current
      processor and moves the index on; a CAS iteration or a decode completion
      leaves both alone. */
  lemma ApplyRoundRobinStep(c: Config, s: Snapshot, e: Event)
    requires Inv(c, s) && s.state == Processing && Apply(c, s, e).state == Processing
    ensures var s1 := Apply(c, s, e);
      && s1.tti == (if e.Iterate? then NextTti(s.tti) else s.tti)
      && if e.Iterate? && !e.inp.isCasSubframe(NextTti(s.tti)) then
           s1.acquired == s.acquired + [s.mbIdx] && s1.mbIdx == NextSlot(s.mbIdx, c.threadCnt)
         else
           s1.acquired == s.acquired && s1.mbIdx == s.mbIdx
  {
    if e.Iterate? {
      NextRoundRobinStep(c, s, e.inp);
    }
  }

  /** The MBSFN subframes counted along a run of events are those of its first
      event, if it is an iteration, and those of the rest. */
  lemma MbsfnCountIterations(t: Tti, evs: seq<Event>)
    requires evs != []
    ensures MbsfnCount(t, Iterations(evs)) ==
      if evs[0].Iterate? then
        (if evs[0].inp.isCasSubframe(NextTti(t)) then 0 else 1) + MbsfnCount(NextTti(t), Iterations(evs[1..]))
      else MbsfnCount(t, Iterations(evs[1..]))
  {
    if evs[0].Iterate? {
      var inps := Iterations(evs);
      assert inps == [evs[0].inp] + Iterations(evs[1..]);
      assert inps[1..] == Iterations(evs[1..]);
    } else {
      assert Iterations(evs) == Iterations(evs[1..]);
    }
  }

  /** From a fresh entry into processing, with decode completions interleaved, the
      MBSFN subframes take processors 0, 1, ..., n-1 and then start over at 0. */
  lemma RoundRobinFromEntryWithReleases(c: Config, s: Snapshot, evs: seq<Event>)
    requires Inv(c, s) && ExecStaysProcessing(c, s, evs) && s.mbIdx == 0
    ensures var r := Execute(c, s, evs);
      var k := MbsfnCount(s.tti, Iterations(evs));
      && |r.acquired| == |s.acquired| + k
      && (forall j :: 0 <= j < k && j < c.threadCnt ==> r.acquired[|s.acquired|..][j] == j)
      && (k >= c.threadCnt ==>
            r.acquired[|s.acquired|..] == RoundRobinFrom(0, c.threadCnt, c.threadCnt) + RoundRobinFrom(0, k - c.threadCnt, c.threadCnt))
  {
    RoundRobinWithReleases(c, s, evs);
    var r := Execute(c, s, evs);
    var k := MbsfnCount(s.tti, Iterations(evs));
    assert r.acquired[|s.acquired|..] == RoundRobinFrom(0, k, c.threadCnt);
    RoundRobinFromZero(k, c.threadCnt);
  }

  /** With decode completions interleaved, the centre frequency is kept and every
      tune is at it. */
  lemma {:induction false} ExecuteKeepsFrequency(c: Config, s: Snapshot, evs: seq<Event>)
    requires Inv(c, s)
    ensures KeepsFrequency(s, Execute(c, s, evs))
    decreases |evs|
  {
    if evs == [] {
      AppendKeepsFrequency(s, s, []);
    } else {
      var s1 := Apply(c, s, evs[0]);
      if evs[0].Iterate? {
        StepKeepsFrequency(c, s, evs[0].inp);
      } else {
        AppendKeepsFrequency(s, s1, []);
      }
      ExecuteKeepsFrequency(c, s1, evs[1..]);
      KeepsFrequencyTrans(s, s1, Execute(c, s, evs));
    }
  }

  /** Without a parameter request, every tune made by the loop, whatever decode
      completions happen in between, is at the built-in default frequency. */
  lemma ExecuteUsesDefaultFrequency(c: Config, gain: real, antenna: string, evs: seq<Event>)
    requires ValidConfig(c)
    ensures TunesAt(Execute(c, Initial(c, gain, antenna), evs).sdr, DefaultFrequency)
  {
    var s := Initial(c, gain, antenna);
    ExecuteKeepsFrequency(c, s, evs);
    var r := Execute(c, s, evs);
    assert r.sdr == s.sdr + r.sdr[|s.sdr|..];
  }

  // ---------------------------------------------------------------------------
  // Telemetry tick

  /** Each processing iteration counts one 32-bit tick and writes a measurement row
      when the tick is a multiple of the interval; other states count nothing. */
  lemma TickCounting(c: Config, s: Snapshot, inp: Inputs)
    requires Inv(c, s)
    ensures var r := Next(c, s, inp);
      if s.state == Processing then
        && r.tick == Inc32(s.tick)
        && r.measurements == s.measurements + (if r.tick % c.measurementInterval == 0 then 1 else 0)
      else r.tick == s.tick && r.measurements == s.measurements
  {
  }
}

=== FILE: radio.dfy ===
/** Small value-level helpers of the receiver's control loop: the TTI counter,
    the 32-bit counters, the PRB to low-pass bandwidth arithmetic, the
    mapping of the PHY's MBSFN subcarrier spacing onto the decoder's, the
    round-robin sequences of MBSFN processor indices, and the modular
    arithmetic that gives their closed forms. */
module Radio {

  datatype Option<+T> = None | Some(value: T)

  /** Number of distinct TTIs: 1024 system frames of 10 subframes each. */
  const TtiCount: nat := 10240

  const Uint32Modulus: nat := 0x1_0000_0000
  const Uint32Max: nat := 0xFFFF_FFFF

  /** A TTI (subframe index) as the loop holds it: system frame number * 10 + subframe number. */
  type Tti = t: nat | t < 10240

  /** The TTI counter after one more subframe, wrapping after the last subframe of SFN 1023. */
  function NextTti(t: Tti): (r: Tti)
    ensures t + 1 < TtiCount ==> r == t + 1
    ensures t + 1 == TtiCount ==> r == 0
  {
    (t + 1) % TtiCount
  }

  /** The system frame number a TTI belongs to. */
  function Sfn(t: Tti): (r: nat)
    ensures r < 1024
    ensures r * 10 <= t < r * 10 + 10
  {
    t / 10
  }

  /** Round-robin successor of an MBSFN processor index among `n` processors. */
  function NextSlot(i: nat, n: nat): (r: nat)
    requires n > 0
    ensures r < n
    ensures r == (i + 1) % n
    ensures i + 1 < n ==> r == i + 1
    ensures i + 1 == n ==> r == 0
  {
    if i + 1 < n then i + 1 else (i + 1) % n
  }

  /** Unsigned 32-bit increment (`x++` on a uint32_t). */
  function Inc32(x: nat): (r: nat)
    ensures r < Uint32Modulus
    ensures x + 1 < Uint32Modulus ==> r == x + 1
    ensures x + 1 == Uint32Modulus ==> r == 0
  {
    (x + 1) % Uint32Modulus
  }

  /** Unsigned 32-bit decrement: 0 wraps around to the largest value. */
  function Dec32(x: nat): (r: nat)
    requires x < Uint32Modulus
    ensures r < Uint32Modulus
    ensures x > 0 ==> r == x - 1
    ensures x == 0 ==> r == Uint32Max
  {
    (x + Uint32Max) % Uint32Modulus
  }

  /** `interval_secs * 1000` computed in 32 bits, as the measurement interval in ticks. */
  function MeasurementInterval(intervalSecs: nat): (r: nat)
    ensures r < Uint32Modulus
    ensures intervalSecs * 1000 < Uint32Modulus ==> r == intervalSecs * 1000
    ensures 0 < intervalSecs && intervalSecs * 1000 < Uint32Modulus ==> r > 0
  {
    (intervalSecs * 1000) % Uint32Modulus
  }

  /** Nominal channel width of `prb` resource blocks, 200 kHz each. */
  function ChannelWidthHz(prb: nat): nat
  {
    prb * 200000
  }

  /** The SDR's low-pass filter bandwidth for `prb` resource blocks: the channel
      width plus a 20% guard margin. */
  function LowPassBandwidth(prb: nat): (bw: nat)
    ensures 5 * bw == 6 * ChannelWidthHz(prb)
    ensures bw >= ChannelWidthHz(prb)
  {
    prb * 240000
  }

  /** The PHY's view of the MBSFN subcarrier spacing. */
  datatype SubcarrierSpacing = Df15kHz | Df7kHz5 | Df1kHz25

  /** The decoder's subcarrier spacing setting. */
  datatype Scs = Scs15kHz | Scs7kHz5 | Scs1kHz25

  function SpacingHz(d: SubcarrierSpacing): nat
  {
    match d
    case Df15kHz => 15000
    case Df7kHz5 => 7500
    case Df1kHz25 => 1250
  }

  function ScsHz(s: Scs): nat
  {
    match s
    case Scs15kHz => 15000
    case Scs7kHz5 => 7500
    case Scs1kHz25 => 1250
  }

  /** The spacing a freshly configured MBSFN processor is given for the PHY's reported spacing. */
  function ToScs(d: SubcarrierSpacing): (s: Scs)
    ensures ScsHz(s) == SpacingHz(d)
  {
    match d
    case Df15kHz => Scs15kHz
    case Df7kHz5 => Scs7kHz5
    case Df1kHz25 => Scs1kHz25
  }

  /** Distinct decoder spacings have distinct widths, so `ToScs` loses nothing. */
  lemma ToScsInjective(d1: SubcarrierSpacing, d2: SubcarrierSpacing)
    ensures ToScs(d1) == ToScs(d2) <==> d1 == d2
  {
  }

  /** The TTI counter after `k` more subframes. */
  function TtiAfter(t: Tti, k: nat): Tti
    decreases k
  {
    if k == 0 then t else TtiAfter(NextTti(t), k - 1)
  }

  /** The processor indices that `k` successive round-robin choices visit, starting at `i`. */
  function RoundRobinFrom(i: nat, k: nat, n: nat): (r: seq<nat>)
    requires n > 0
    ensures |r| == k
    ensures i < n ==> forall j :: 0 <= j < k ==> r[j] < n
    decreases k
  {
    if k == 0 then [] else [i] + RoundRobinFrom(NextSlot(i, n), k - 1, n)
  }

  /** Round robin counts up by one until it reaches the last processor. */
  lemma {:induction false} RoundRobinCountsUp(i: nat, k: nat, n: nat)
    requires i + k <= n
    requires n > 0
    ensures forall j :: 0 <= j < k ==> RoundRobinFrom(i, k, n)[j] == i + j
    decreases k
  {
    if k > 0 {
      RoundRobinCountsUp(i + 1, k - 1, n);
    }
  }

  /** After the last processor, round robin starts again at processor 0. */
  lemma {:induction false} RoundRobinWraps(k: nat, n: nat)
    requires n > 0
    ensures RoundRobinFrom(0, n + k, n) == RoundRobinFrom(0, n, n) + RoundRobinFrom(0, k, n)
  {
    RoundRobinSplit(0, n, k, n);
    RoundRobinFullCircle(0, n, n);
  }

  /** Round robin from processor 0 visits 0, 1, ..., n-1 and then starts over. */
  lemma RoundRobinFromZero(k: nat, n: nat)
    requires n > 0
    ensures forall j :: 0 <= j < k && j < n ==> RoundRobinFrom(0, k, n)[j] == j
    ensures k >= n ==> RoundRobinFrom(0, k, n) == RoundRobinFrom(0, n, n) + RoundRobinFrom(0, k - n, n)
  {
    if k <= n {
      RoundRobinCountsUp(0, k, n);
    } else {
      RoundRobinWraps(k - n, n);
      RoundRobinCountsUp(0, n, n);
    }
  }

  /** Visiting `a + b` processors is visiting `a` and then `b` more from where the first run stopped. */
  lemma {:induction false} RoundRobinSplit(i: nat, a: nat, b: nat, n: nat)
    requires n > 0
    ensures RoundRobinFrom(i, a + b, n) == RoundRobinFrom(i, a, n) + RoundRobinFrom(SlotAfter(i, a, n), b, n)
    decreases a
  {
    if a > 0 {
      RoundRobinSplit(NextSlot(i, n), a - 1, b, n);
    }
  }

  /** The processor index after `k` round-robin steps from `i`. */
  function SlotAfter(i: nat, k: nat, n: nat): (r: nat)
    requires n > 0
    ensures i < n ==> r < n
    decreases k
  {
    if k == 0 then i else SlotAfter(NextSlot(i, n), k - 1, n)
  }

  /** From processor `i`, `n - i` steps come back to processor 0. */
  lemma {:induction false} RoundRobinFullCircle(i: nat, k: nat, n: nat)
    requires i + k == n
    requires k > 0
    ensures SlotAfter(i, k, n) == 0
    decreases k
  {
    if k > 1 {
      RoundRobinFullCircle(i + 1, k - 1, n);
    }
  }

  /** The remainder of `x` by `n` is the `r` of any decomposition `x == q * n + r`
      with `0 <= r < n`. */
  lemma ModUnique(x: int, n: int, q: int, r: int)
    requires n > 0 && 0 <= r < n && x == q * n + r
    ensures x % n == r
  {
    var q', r' := x / n, x % n;
    assert x == q' * n + r';
    QuotientsAgree(n, q, r, q', r');
  }

  /** Two decompositions with remainders in `[0, n)` have the same quotient. */
  lemma QuotientsAgree(n: int, q: int, r: int, q': int, r': int)
    requires n > 0 && 0 <= r < n && 0 <= r' < n && q * n + r == q' * n + r'
    ensures q == q'
  {
    MulDiff(n, q, q');
    if q > q' {
      MulAtLeast(q - q', n);
    } else if q < q' {
      MulAtLeast(q' - q, n);
    }
  }

  lemma MulDiff(n: int, q: int, q': int)
    ensures q * n - q' * n == (q - q') * n
  {
  }

  lemma MulAtLeast(d: int, n: int)
    requires d >= 1 && n > 0
    ensures d * n >= n
  {
  }

  /** The remainder of a successor: one more, or 0 once it reaches `n`. */
  lemma ModSucc(x: nat, n: nat)
    requires n > 0
    ensures (x + 1) % n == if x % n + 1 < n then x % n + 1 else 0
  {
    var q := x / n;
    assert x == q * n + x % n;
    if x % n + 1 < n {
      ModUnique(x + 1, n, q, x % n + 1);
    } else {
      ModUnique(x + 1, n, q + 1, 0);
    }
  }

  /** `k` subframes after `t` is `(t + k) mod 10240`. */
  lemma {:induction false} TtiAfterClosedForm(t: Tti, k: nat)
    ensures TtiAfter(t, k) == (t + k) % TtiCount
    decreases k
  {
    if k == 0 {
      ModUnique(t, TtiCount, 0, t);
    } else {
      TtiAfterSucc(t, k - 1);
      TtiAfterClosedForm(t, k - 1);
      ModSucc(t + k - 1, TtiCount);
    }
  }

  /** One more subframe after `k` subframes. */
  lemma {:induction false} TtiAfterSucc(t: Tti, k: nat)
    ensures TtiAfter(t, k + 1) == NextTti(TtiAfter(t, k))
    decreases k
  {
    if k > 0 {
      TtiAfterSucc(NextTti(t), k - 1);
    }
  }

  /** `k` round-robin steps from a valid index `i` reach `(i + k) mod n`. */
  lemma {:induction false} SlotAfterClosedForm(i: nat, k: nat, n: nat)
    requires n > 0 && i < n
    ensures SlotAfter(i, k, n) == (i + k) % n
    decreases k
  {
    if k == 0 {
      ModUnique(i, n, 0, i);
    } else {
      SlotAfterSucc(i, k - 1, n);
      SlotAfterClosedForm(i, k - 1, n);
      ModSucc(i + k - 1, n);
    }
  }

  /** One more round-robin step after `k` steps. */
  lemma {:induction false} SlotAfterSucc(i: nat, k: nat, n: nat)
    requires n > 0
    ensures SlotAfter(i, k + 1, n) == NextSlot(SlotAfter(i, k, n), n)
    decreases k
  {
    if k > 0 {
      SlotAfterSucc(NextSlot(i, n), k - 1, n);
    }
  }
}

=== FILE: receiver.dfy ===
/** The acquisition loop as it runs: the globals and loop locals of `main()` as
    fields of one object, the MBSFN frame processors as an array of slots, and one
    method per iteration. Every method is proved against the functions of `Machine`. */
module Loop {
  import opened Radio
  import opened Sync
  import opened Machine

  class Receiver {
    const cfg: Config

    // loop locals
    var state: RxState
    var tti: Tti
    var mbIdx: nat
    var tick: nat
    var measurements: nat

    // globals shared with the parameter callback
    var restart: bool
    var frequency: nat
    var sampleRate: nat
    var bandwidth: nat
    var gain: real
    var antenna: string
    var casNofPrb: nat
    var mbsfnNofPrb: nat

    // the MBSFN frame processors
    const slots: array<Slot>

    // what the loop asked of the SDR and of the protocol stack
    var sdrLog: seq<SdrEvent>
    var stackLog: seq<StackCall>

    // decode tasks pushed to the pool and buffers taken, in order
    ghost var submissions: seq<Task>
    ghost var acquired: seq<nat>

    ghost function Abs(): Snapshot
      reads this, slots
    {
      Snapshot(state, tti, mbIdx, tick, restart, frequency, sampleRate, bandwidth, gain, antenna,
               casNofPrb, mbsfnNofPrb, slots[..], sdrLog, stackLog, submissions, acquired, measurements)
    }

    ghost predicate Valid()
      reads this, slots
    {
      Inv(cfg, Abs())
    }

    /** Set up as `main()` leaves things just before its loop: the measurement
        interval is `interval_secs * 1000` in 32 bits and must not be 0, and the
        SDR has been started. */
    constructor (searchSampleRate: nat, gain: real, antenna: string, useAgc: bool, threadCnt: nat,
                 intervalSecs: nat, sampleFile: bool, fileBw: nat, samplingFreqHz: nat -> nat)
      requires threadCnt > 0
      requires MeasurementInterval(intervalSecs) > 0
      ensures cfg == Config(searchSampleRate, useAgc, threadCnt, MeasurementInterval(intervalSecs),
                            sampleFile, fileBw, samplingFreqHz)
      ensures Valid() && fresh(slots)
      ensures Abs() == Initial(cfg, gain, antenna)
    {
      cfg := Config(searchSampleRate, useAgc, threadCnt, MeasurementInterval(intervalSecs),
                    sampleFile, fileBw, samplingFreqHz);
      state := Searching;
      tti := 0;
      mbIdx := 0;
      tick := 0;
      measurements := 0;
      restart := false;
      frequency := DefaultFrequency;
      sampleRate := searchSampleRate;
      bandwidth := DefaultBandwidth;
      this.gain := gain;
      this.antenna := antenna;
      casNofPrb := 0;
      mbsfnNofPrb := 0;
      slots := new Slot[threadCnt](_ => Slot(false, None));
      sdrLog := [Start];
      stackLog := [];
      submissions := [];
      acquired := [];
    }

    /** The parameter callback: store the whole tuple, then request a restart. */
    method SetParams(ant: string, fc: nat, g: real, sr: nat, bw: nat)
      requires Valid()
      modifies this
      ensures Valid()
      ensures Abs() == SetParamsSpec(old(Abs()), ant, fc, g, sr, bw)
    {
      sampleRate := sr;
      frequency := fc;
      bandwidth := bw;
      antenna := ant;
      gain := g;
      restart := true;
    }

    /** A decode task completed and released the processor it held locked. */
    method CompleteDecode(i: nat)
      requires Valid() && i < slots.Length && slots[i].locked
      modifies slots
      ensures Valid()
      ensures Abs() == Release(cfg, old(Abs()), i)
    {
      slots[i] := slots[i].(locked := false);
    }

    /** One iteration of the control loop. The buffer of an MBSFN processor whose
        decode task is still running cannot be taken; the iteration happens once
        that task has released it. */
    method Step(inp: Inputs)
      requires Valid()
      requires !AcquireBlocks(cfg, Abs(), inp)
      modifies this, slots
      ensures Valid()
      ensures Abs() == Next(cfg, old(Abs()), inp)
    {
      if state == Searching {
        SearchCell(inp);
      } else if state == Syncing {
        SyncSubframe(inp);
      } else {
        ProcessSubframe(inp);
      }
    }

    /** One thing that happens to the running receiver: an iteration of the loop,
        or a decode task releasing its processor. */
    method Perform(e: Event)
      requires Valid() && Enabled(cfg, Abs(), e)
      modifies this, slots
      ensures Valid()
      ensures Abs() == Apply(cfg, old(Abs()), e)
    {
      match e
      case Iterate(inp) =>
        Step(inp);
      case Complete(i) =>
        CompleteDecode(i);
    }

    /** The loop running through `evs`, decode completions included, one event
        at a time. */
    method PerformAll(evs: seq<Event>)
      requires Valid() && Feasible(cfg, Abs(), evs)
      modifies this, slots
      ensures Valid()
      ensures Abs() == Execute(cfg, old(Abs()), evs)
    {
      var i := 0;
      while i < |evs|
        invariant 0 <= i <= |evs|
        invariant Valid()
        invariant Feasible(cfg, Abs(), evs[i..])
        invariant Execute(cfg, Abs(), evs[i..]) == Execute(cfg, old(Abs()), evs)
      {
        assert evs[i..][0] == evs[i] && evs[i..][1..] == evs[i + 1..];
        Perform(evs[i]);
        i := i + 1;
      }
    }

    method RetuneForSearch()
      requires Valid()
      modifies this
      ensures Valid()
      ensures Abs() == SearchRetune(cfg, old(Abs()))
    {
      sampleRate := cfg.searchSampleRate;
      sdrLog := sdrLog + [Stop, Tune(frequency, sampleRate, bandwidth, gain, antenna, cfg.useAgc), Start];
    }

    method SearchCell(inp: Inputs)
      requires Valid() && state == Searching
      modifies this
      ensures Valid()
      ensures Abs() == SearchStep(cfg, old(Abs()), inp)
    {
      BeginSearch();
      if inp.cellFound {
        CellFound(inp.nrPrb);
      }
    }

    method BeginSearch()
      requires Valid()
      modifies this
      ensures Valid()
      ensures Abs() == PrepareSearch(cfg, old(Abs()))
    {
      if restart {
        RetuneForSearch();
      }
      sdrLog := sdrLog + [DisableFileWriting, ClearBuffer];
      restart := false;
    }

    method CellFound(nrPrb: nat)
      requires Valid()
      modifies this
      ensures Valid()
      ensures Abs() == AdoptCell(cfg, old(Abs()), nrPrb)
    {
      casNofPrb := nrPrb;
      mbsfnNofPrb := nrPrb;
      if FileMode(cfg) {
        mbsfnNofPrb := cfg.fileBw * 5;
        stackLog := stackLog + [PhySetNofMbsfnPrb(mbsfnNofPrb), PhySetCell];
      } else {
        var newSrate := cfg.samplingFreqHz(casNofPrb);
        bandwidth := LowPassBandwidth(casNofPrb);
        sdrLog := sdrLog + [Stop, Tune(frequency, newSrate, bandwidth, gain, antenna, cfg.useAgc), Start];
      }
      state := Syncing;
    }

    method UnlockAll()
      requires Valid()
      modifies slots
      ensures slots[..] == Unlocked(old(slots[..]))
    {
      var i := 0;
      while i < slots.Length
        invariant 0 <= i <= slots.Length
        invariant forall j :: 0 <= j < i ==> slots[j] == old(slots[j]).(locked := false)
        invariant forall j :: i <= j < slots.Length ==> slots[j] == old(slots[j])
      {
        slots[i] := slots[i].(locked := false);
        i := i + 1;
      }
    }

    method SyncSubframe(inp: Inputs)
      requires Valid() && state == Syncing
      modifies this, slots
      ensures Valid()
      ensures Abs() == SyncStep(cfg, old(Abs()), inp)
    {
      var synced, calls, maxFrames := SyncPass(inp.syncAttempt);
      stackLog := stackLog + [SyncAttempts(calls)];
      state := if maxFrames == 0 && !synced then Searching else state;
      if synced {
        StartProcessing(inp);
      }
    }

    method StartProcessing(inp: Inputs)
      requires Valid()
      modifies this, slots
      ensures Valid()
      ensures Abs() == EnterProcessing(cfg, old(Abs()), inp)
    {
      stackLog := stackLog + [CasSetCell(inp.cell)];
      UnlockAll();
      tti := inp.phyTti;
      stackLog := stackLog + [RrcReset];
      state := Processing;
      mbIdx := 0;
      sdrLog := sdrLog + [EnableFileWriting];
    }

    method LoseSyncNow()
      requires Valid()
      modifies this
      ensures Valid()
      ensures Abs() == LoseSync(cfg, old(Abs()))
    {
      RetuneForSearch();
      stackLog := stackLog + [RrcReset, PhyReset];
      state := Searching;
    }

    method ProcessCas(inp: Inputs)
      requires Valid() && state == Processing
      modifies this
      ensures Valid()
      ensures Abs() == CasSubframe(cfg, old(Abs()), inp)
    {
      if !restart && inp.frameFetched {
        submissions := submissions + [CasDecode(tti)];
        if inp.nofMbsfnPrb != mbsfnNofPrb {
          mbsfnNofPrb := inp.nofMbsfnPrb;
          var newSrate := cfg.samplingFreqHz(mbsfnNofPrb);
          bandwidth := LowPassBandwidth(mbsfnNofPrb);
          sdrLog := sdrLog + [Stop, Tune(frequency, newSrate, bandwidth, gain, antenna, cfg.useAgc), Start];
          stackLog := stackLog + [PhySetCell, CasSetCell(inp.cell)];
          state := Syncing;
        }
      } else {
        LoseSyncNow();
      }
    }

    method ProcessMbsfn(inp: Inputs)
      requires Valid() && state == Processing
      modifies this, slots
      ensures Valid()
      ensures Abs() == MbsfnSubframe(cfg, old(Abs()), inp)
    {
      var fetched := false;
      if !restart {
        slots[mbIdx] := slots[mbIdx].(locked := true);
        acquired := acquired + [mbIdx];
        fetched := inp.frameFetched;
      }
      if fetched {
        if inp.mcchConfigured && inp.isMbsfnSubframe(tti) {
          if slots[mbIdx].config == None {
            slots[mbIdx] := slots[mbIdx].(config := Some(SlotConfigFor(inp)));
          }
          submissions := submissions + [MbsfnDecode(mbIdx, tti)];
        } else {
          slots[mbIdx] := slots[mbIdx].(locked := false);
        }
      } else {
        LoseSyncNow();
      }
      mbIdx := NextSlot(mbIdx, cfg.threadCnt);
    }

    method ProcessSubframe(inp: Inputs)
      requires Valid() && state == Processing
      modifies this, slots
      ensures Valid()
      ensures Abs() == ProcessStep(cfg, old(Abs()), inp)
    {
      tti := NextTti(tti);
      if inp.isCasSubframe(tti) {
        ProcessCas(inp);
      } else {
        ProcessMbsfn(inp);
      }
      tick := Inc32(tick);
      if tick % cfg.measurementInterval == 0 {
        measurements := measurements + 1;
      }
    }
  }
}

=== FILE: sync.dfy ===
/** The syncing state's bounded retry loop: up to 200 calls of the PHY's
    subframe synchronisation, counted down by an unsigned counter that is
    post-decremented in the loop guard. */
module Sync {
  import opened Radio

  /** Initial value of the retry counter. */
  const MaxSyncFrames: nat := 200

  /** What one syncing pass leaves behind: whether the PHY synchronised, how many
      times it was asked, and the final value of the 32-bit retry counter. */
  datatype SyncResult = SyncResult(synced: bool, calls: nat, maxFrames: nat)

  /** The first of the attempts `k`, `k + 1`, ... that succeeds, or `MaxSyncFrames`
      when none before it does. `attempt(j)` is the PHY's answer to the (j+1)-th call. */
  function FirstSync(attempt: nat -> bool, k: nat): (r: nat)
    requires k <= MaxSyncFrames
    ensures k <= r <= MaxSyncFrames
    ensures r < MaxSyncFrames ==> attempt(r)
    ensures forall j :: k <= j < r ==> !attempt(j)
    decreases MaxSyncFrames - k
  {
    if k == MaxSyncFrames then k
    else if attempt(k) then k
    else FirstSync(attempt, k + 1)
  }

  /** The outcome of one syncing pass. When every attempt fails, the counter has
      wrapped to the largest 32-bit value instead of stopping at 0, so the
      fall-back test `max_frames == 0 && !sfn_sync` never holds. */
  function SyncOutcome(attempt: nat -> bool): (r: SyncResult)
    ensures 1 <= r.calls <= MaxSyncFrames
    ensures r.synced <==> exists j :: 0 <= j < MaxSyncFrames && attempt(j)
    ensures r.synced ==> attempt(r.calls - 1) && r.maxFrames == MaxSyncFrames - r.calls
    ensures forall j :: 0 <= j < r.calls - 1 ==> !attempt(j)
    ensures !r.synced ==> r.calls == MaxSyncFrames && r.maxFrames == Uint32Max
    ensures !(r.maxFrames == 0 && !r.synced)
  {
    var first := FirstSync(attempt, 0);
    if first < MaxSyncFrames then SyncResult(true, first + 1, MaxSyncFrames - (first + 1))
    else SyncResult(false, MaxSyncFrames, Uint32Max)
  }

  /** The retry loop as written: the guard `!sfn_sync && max_frames-- > 0` compares the
      counter's old value and decrements it only when the first operand holds. */
  method SyncPass(attempt: nat -> bool) returns (synced: bool, calls: nat, maxFrames: nat)
    ensures SyncResult(synced, calls, maxFrames) == SyncOutcome(attempt)
  {
    maxFrames := MaxSyncFrames;
    synced := false;
    calls := 0;
    var more := maxFrames > 0;
    maxFrames := Dec32(maxFrames);
    while more
      invariant calls <= MaxSyncFrames && maxFrames < Uint32Modulus
      invariant forall j :: 0 <= j < calls - 1 ==> !attempt(j)
      invariant synced ==> !more && calls >= 1 && attempt(calls - 1) && maxFrames == MaxSyncFrames - calls
      invariant !synced ==> calls == 0 || !attempt(calls - 1)
      invariant !synced ==> more == (calls < MaxSyncFrames)
      invariant !synced ==> maxFrames == if calls < MaxSyncFrames then MaxSyncFrames - 1 - calls else Uint32Max
      decreases MaxSyncFrames - calls
    {
      synced := attempt(calls);
      calls := calls + 1;
      if synced {
        more := false;
      } else {
        more := maxFrames > 0;
        maxFrames := Dec32(maxFrames);
      }
    }
  }
}
